=== FILE: README.md ===
# py4spice core in Dafny

This project models the data-handling core of py4spice. py4spice is a Python
front end that drives the KiCad netlist exporter and the ngspice simulator.
The model covers five parts of the library:

- `SimResults` (`sim_results.py`, and its near-copy `sim_results2.py`). It
  reads an ngspice result file into an analysis type, a header of vector
  names and a 2-D matrix. It removes duplicated plot columns, keeps a requested
  subset of vectors, prints table results, and looks up columns and table
  values.
- `Signals` (`signals.py`). These are named y-signals against one x-axis. They
  are built from a plot file or a table file, with the extra x-axis columns
  ngspice emits removed. The class also answers single-signal lookups and
  formats a value table.
- `Vectors` (`vectors.py`). This is the de-duplicated set of vector names that
  a simulation is asked to save, with union via `+`.
- `Kicad` (`kicad.py`). It builds the `kicad-cli sch export netlist` command
  line. It also rewrites the exported netlist so that hierarchical net names
  lose their leading `/`.

Python exceptions become `Outcomes.Outcome<T>` values (`Ok` / `Err`). The
failure is `ValueError` (a failed `float()`, `list.index` of an absent name,
a ragged `np.array`, `max` of no names, or the truth test of a multi-element
array), `IndexError` (a list or array position out of range) or `TypeError`
(formatting a one-element array).
Files are modelled as their text, split into lines. The things that Python or
numpy computes outside these files are parameters:

- `float()` is `parse: string -> Option<real>`.
- `str(float)` and the `:.6g` format are `render` / `fmt: real -> string`.
- `interp1d` is `interp`.
- `TABLE_DATA` is `tableData`.
- The matrix that `np.genfromtxt` produces is `plotData`.

`str.split()` is `Text.Words`. `" ".join` is `Text.Join`. `readlines()` is
`Text.ReadLines`. `list.index` is `Seqs.FirstIndex` together with the
predicate `Seqs.FirstAt`. `np.delete` over a set of positions is
`Seqs.KeepWhere` with a Boolean mask. Python's loops that delete in descending
index order are modelled literally (`Seqs.DeleteDescending`), and lemmas
connect them to the mask form.

The modules are `Outcomes`, `Seqs`, `Text`, `Grids`, `SimResults`,
`SimResults2`, `Signals`, `Vectors` and `Kicad`, one file each.

Behaviour worth knowing:

- `vec_subset`. When a requested name is missing from the header, the code
  only prints a message and leaves the table unchanged. It does not fail.
  When every header name is requested, the code raises `IndexError`. When the
  x-axis name is itself requested, the code keeps one unrequested column. The
  third point is listed under Findings.
- `Vectors`. Python's `list(set(...))` leaves the order unspecified. The
  model fixes first-occurrence order. The contracts of `FromText`, `Add`,
  `AddCommutes` and `AddAssociates` speak only of membership and absence of
  repeats, which is all Python guarantees for a new set of vectors. Once the
  list is stored, its order is fixed: `ListOut` returns that very list, the
  one `Str` prints. `FromTextOfStr`, `AddUnit` and `Seqs.DistinctOfNoDup`
  also state the order of a fresh result, and that order is the model's own
  choice (see "Left out").
- `from_file`. For table analyses the code never removes duplicate names. Only
  plot results are de-duplicated.

## Model

| member | source | states |
|---|---|---|
| Seqs.FirstIndex | python/py4spice/sim_results.py:221 | `list.index`: none exactly when the name is absent; otherwise the position of its first occurrence |
| Seqs.DeleteDescendingKeeps | python/py4spice/sim_results.py:126-127 | deleting positions one by one from the largest down removes exactly those positions and keeps every other element in order |
| Seqs.KeepWhereFrom | python/py4spice/sim_results.py:123 | every entry left after deletion comes from a kept position |
| Seqs.KeepFirstIsDistinct | python/py4spice/sim_results.py:119-128 | keeping only first occurrences gives the de-duplicated list in original order |
| Seqs.DistinctOfNoDup | python/py4spice/vectors.py:6 | the model's first-occurrence de-duplication returns a list without repeats unchanged, order included |
| Text.WordsOfJoin | python/py4spice/vectors.py:9 | splitting the space-joined list of whitespace-free words gives the list back |
| Text.ReadLinesShape | python/py4spice/kicad.py:46 | `readlines()` yields non-empty lines, newline only at the end, all but the last terminated, whose concatenation is the whole text |
| Text.ReadLinesOfConcat | python/py4spice/kicad.py:62-65 | writing well-shaped lines back-to-back and reading them again returns the same lines |
| Text.LJust | python/py4spice/sim_results.py:206-208 | left-justifying keeps the text as a prefix and pads with spaces only, up to the width |
| Text.RJust | python/py4spice/signals.py:129-131 | right-justifying keeps the text as a suffix and pads with spaces only, up to the width |
| Grids.KeepColumnsAll | python/py4spice/sim_results.py:123 | deleting no columns leaves every row unchanged |
| SimResults.TableProcessing | python/py4spice/sim_results.py:46-63 | a table file parses exactly when the last word of every non-blank line is a number; the header is "x-axis" then each line's first word; the data is one column holding 0.0 and then each line's last value, row for row with the header; otherwise ValueError |
| SimResults.ValuesParseCons | python/py4spice/sim_results.py:50-57 | one step of the line loop: blank lines are skipped and a non-blank line parses iff its last word does |
| SimResults.OneWordLine | python/py4spice/sim_results.py:53-54 | a line of a single word uses that word both as the name and as the value |
| SimResults.NonBlankAll | python/py4spice/sim_results.py:52 | when no line is blank, every line contributes a row |
| SimResults.FindDuplicateIndexes | python/py4spice/sim_results.py:95-104 | the indexes reported are increasing, in range, and are exactly the positions whose name already occurred earlier |
| SimResults.RemoveDups | python/py4spice/sim_results.py:119-130 | the header and every data row are masked by the same first-occurrence mask, so the header has no repeats and each row keeps the columns of the kept names, given data as wide as the header |
| SimResults.RemoveDupsUnique | python/py4spice/sim_results.py:119-130 | when the header has no repeats, header and data come back untouched |
| SimResults.RemoveDupsIdempotent | python/py4spice/sim_results.py:119-130 | removing duplicates twice is the same as once |
| SimResults.PlotHeader | python/py4spice/sim_results.py:76-78 | the header is the whitespace-split words of the first line, so each is non-empty and free of whitespace; an empty file or a blank first line gives no header |
| SimResults.FromFile | python/py4spice/sim_results.py:143-150 | table analyses go through table parsing (no de-duplication) and plot analyses through the plot header with duplicates removed; the analysis type is kept |
| SimResults.SubsetDrop | python/py4spice/sim_results.py:159-163 | the deletion list is strictly decreasing and holds exactly the unrequested header positions other than the smallest one |
| SimResults.VecSubset | python/py4spice/sim_results.py:158-170 | as written: a request that is not a subset leaves the table as it is; requesting every name raises IndexError; otherwise IndexError comes exactly when a position in the deletion list lies past the data's width; any result keeps the analysis type, row count and only original names |
| SimResults.VecSubsetSurvivors | python/py4spice/sim_results.py:158-170 | a successful subset keeps exactly the header positions and data columns outside the deletion list, in order |
| SimResults.VecSubsetIntended | python/py4spice/sim_results.py:158-170 | corrected: the header becomes the x-axis followed by the requested names in header order, every row keeps the same columns, every requested name is present, and requesting all names keeps the table |
| SimResults.SubsetDropSurvivors | python/py4spice/sim_results.py:159-163 | when the x-axis name is not requested, dropping the last entry of the descending deletion list spares exactly position 0 |
| SimResults.VecSubsetAgrees | python/py4spice/sim_results.py:158-168 | when the x-axis name is not requested, the code as written computes the intended subset |
| SimResults.ExampleAsWritten | python/py4spice/sim_results.py:162-163 | with header time,a,b and request time,b the code deletes nothing |
| SimResults.VecSubsetKeepsUnrequested | python/py4spice/sim_results.py:159-163 | for every table: when the x-axis name is requested, the first unrequested name survives the code as written but not the intended subset |
| SimResults.ExampleIntended | python/py4spice/sim_results.py:158-168 | with header time,a,b and request time,b the intended subset is time,b |
| SimResults.VecSubsetAllFails | python/py4spice/sim_results.py:159-163 | requesting every header name empties the deletion list, so `del [-1]` raises IndexError where the table should be kept |
| SimResults.PrintTableLines | python/py4spice/sim_results.py:200-213 | an empty header is a ValueError (`max` of nothing); otherwise one line per header name after the x-axis row (zip stops at the shorter side); each line is the name, spaces up to a column one short for negative values, and the rendered value |
| SimResults.PrintTableOfParsed | python/py4spice/sim_results.py:200-213 | a parsed table prints one line per non-blank input line |
| SimResults.SingleColumn | python/py4spice/sim_results.py:221-223 | absent names are a ValueError; otherwise the column at the name's first occurrence, an IndexError if that column does not exist |
| SimResults.SingleColumnOfUnique | python/py4spice/sim_results.py:221-223 | with distinct names, the j-th name's column is column j |
| SimResults.XAxisAndSigs | python/py4spice/sim_results.py:234-238 | x-axis column followed by each requested signal's column; the first failing lookup's error otherwise |
| SimResults.TableValue | python/py4spice/sim_results.py:249-250 | the rendered single value of the row at the name's first occurrence; ValueError when absent |
| SimResults.TableValueOfParsed | python/py4spice/sim_results.py:249-250 | after parsing a table file, looking up the name on the line where it first occurs gives back that line's last value |
| SimResults2.FindDuplicateIndexes | python/py4spice/sim_results2.py:96-105 | the same duplicate scan: exactly the positions whose name occurred earlier, increasing |
| SimResults2.RemoveDups | python/py4spice/sim_results2.py:120-130 | first occurrences kept in header and rows alike; a repeat-free header is untouched |
| SimResults2.FromFile | python/py4spice/sim_results2.py:143-150 | the same dispatch: table analyses are parsed as tables, plot analyses get the de-duplicated header and every data row masked to the first-occurrence columns |
| Signals.MatchesDescending | python/py4spice/signals.py:42-43 | the positions of the column name, largest first |
| Signals.DeleteMatches | python/py4spice/signals.py:49-51 | deleting those positions from largest down is keeping all other entries |
| Signals.DeleteColumns | python/py4spice/signals.py:37-53 | an absent name returns the inputs; otherwise every occurrence is removed from labels and data alike, leaving the name absent; IndexError iff a matching label has no data entry |
| Signals.RemoveLabel | python/py4spice/signals.py:37-53 | the labels kept by the deletion mask are the original labels minus every copy of the deleted name, all other labels with their multiplicities |
| Signals.ToFloatArray | python/py4spice/signals.py:68-69 | `np.array(..., dtype=float)` succeeds iff the rows are equally long and every word parses; each entry is its word's value |
| Signals.FromSpicePlot | python/py4spice/signals.py:59-77 | no header line is an IndexError, a non-numeric or ragged body a ValueError, no data or no columns an IndexError; otherwise the read fails with IndexError exactly when a repeat of the x label lies past the last data column, and on success the x-label is the first header word, never among the y-labels, which are the remaining words minus its repeats; x-data is the first column, and the y vectors are the other columns minus those at the repeats, in order |
| Signals.PlotSignalsLockstep | python/py4spice/signals.py:65-75 | with one header word per column the split never fails, and the surviving labels and y vectors are equal in number, selected by the same mask |
| Signals.FromSpicePlotAligned | python/py4spice/signals.py:59-77 | a numeric plot file whose header has one word per data column is always read successfully |
| Signals.FromSpicePlotNoRepeats | python/py4spice/signals.py:63-75 | with no repeated x-axis name, every y column of the file becomes a signal under its header word |
| Signals.FromSpiceTable | python/py4spice/signals.py:84-91 | a blank line is an IndexError and an unparsable last word a ValueError, and no other error occurs, so a file without either is read; the result is one scalar signal per line named by its first word, on the x-axis [0.0] |
| Signals.TableReadersAgree | python/py4spice/signals.py:87-91 | for files without blank lines, the table reader of `Signals` and that of `SimResults` succeed together and agree on names and values |
| Signals.Lookup | python/py4spice/signals.py:99-104 | the signal at the name's first occurrence; ValueError when absent, IndexError when it has no data |
| Signals.SignalValue | python/py4spice/signals.py:99-111 | with one x point the stored value itself; otherwise interpolation of that signal at x |
| Signals.SignalValueOnePoint | python/py4spice/signals.py:101-104 | with one x point the value does not depend on x or on the interpolator |
| Signals.SignalValueOfTable | python/py4spice/signals.py:93-104 | after reading a table file, the value of the name on the line where it first occurs is that line's last number |
| Signals.XAxisAndSigs | python/py4spice/signals.py:145-150 | the x data and each requested signal in order; the first failing lookup's error otherwise |
| Signals.ValueLine | python/py4spice/signals.py:127-131 | a scalar gives the name right-justified, a colon, one space for negative values or two otherwise, and the formatted value; an array value cannot be compared or formatted |
| Signals.NameLine | python/py4spice/signals.py:127-131 | a name's line exists exactly when its value is a scalar; a failed lookup or interpolation passes its error through, an array value gives TypeError or ValueError |
| Signals.ValueLines | python/py4spice/signals.py:126-132 | one aligned line per name when every value prints; otherwise the error of the first name whose line fails |
| Signals.SignalsTableLines | python/py4spice/signals.py:123-133 | no names is a ValueError; otherwise a heading with the formatted x, then one aligned line per name, failing with the error of the first name whose line fails |
| Signals.SignalsTableOnePoint | python/py4spice/signals.py:123-133 | with one x point the table body is the same for every x |
| Vectors.FromText | python/py4spice/vectors.py:5-6 | the names are exactly the words of the text, each once |
| Vectors.Str | python/py4spice/vectors.py:8-9 | splitting the printed form gives back exactly the stored names |
| Vectors.ListOut | python/py4spice/vectors.py:14-15 | the stored list itself, the one `str()` prints, in the same order: splitting the printed form gives it back; its names are whitespace-free and not repeated |
| Vectors.FromTextOfStr | python/py4spice/vectors.py:5-9 | printing a vector set and reading it back gives the same names in the model's order |
| Vectors.Add | python/py4spice/vectors.py:17-20 | the union: a name is in the sum iff it is in either operand |
| Vectors.AddCommutes | python/py4spice/vectors.py:17-20 | a + b and b + a hold the same names |
| Vectors.AddAssociates | python/py4spice/vectors.py:17-20 | (a + b) + c and a + (b + c) hold the same names |
| Vectors.AddUnit | python/py4spice/vectors.py:17-20 | a + a and a plus the empty set are a itself, in the model's order |
| Kicad.CmdArgs | python/py4spice/kicad.py:18-26 | nine arguments: the exporter, `sch export netlist --output`, the netlist path, `--format spice`, the schematic path |
| Kicad.Cmd | python/py4spice/kicad.py:18-35 | the command string is the exporter, `sch export netlist --output`, the netlist path, `--format spice` and the schematic path, separated by single spaces |
| Kicad.CmdSplits | python/py4spice/kicad.py:27-35 | when no path holds whitespace, the printed command splits back into the argument list that is run |
| Kicad.StripSlash | python/py4spice/kicad.py:57 | a word starting with '/' loses exactly that character; other words are unchanged |
| Kicad.StripLine | python/py4spice/kicad.py:52-60 | lines not starting with a letter pass unchanged; card lines become their words re-joined by single spaces plus a newline |
| Kicad.StripLineWords | python/py4spice/kicad.py:54-60 | the words of a rewritten card are the original words with their leading '/' removed, and the element name is unchanged |
| Kicad.DeleteForwardSlashes | python/py4spice/kicad.py:45-65 | an empty netlist stays empty, and reading the rewritten netlist back gives the rewritten lines, one per original line |
| Kicad.StripLinesShaped | python/py4spice/kicad.py:50-62 | rewriting every line keeps the shape of a `readlines()` result |
| Kicad.NoCardsUnchanged | python/py4spice/kicad.py:50-65 | a netlist with no line starting with a letter is written back unchanged |

## Left out

- File I/O (`open`, `seek`, `truncate`, universal-newline translation) is not modelled. A file is its text, or the list of its lines.
- `float()` parsing and float formatting are parameters, not models of IEEE-754 or of Python's repr. The sign test `< 0` is on the exact real value.
- `np.genfromtxt` (`_plot_processing`) is not modelled. The matrix it returns is the parameter `plotData`. This includes its 1-D result for single-row or single-column files and its NaN for missing fields.
- SimResults.RemoveDups: requires the data width to equal the header length. numpy would instead raise IndexError when a duplicate position is past the last column.
- SimResults.FromFile: requires the plot matrix width to equal the header length, for the same reason as `RemoveDups`.
- SimResults2.RemoveDups: requires the data width to equal the header length, as `SimResults.RemoveDups` does.
- SimResults2.FromFile: requires the plot matrix width to equal the header length, as `SimResults.FromFile` does.
- `x_range` (`sim_results.py:172-191`) and all of `interp1d` are left out: they are floating-point interpolation. `signal_value` with more than one x point takes `interp` as a parameter.
- `SimResults.__repr__`, `__str__`, and the `print` calls in `_remove_dups`, `vec_subset` and `print_table` only produce console output.
- `Signals.__repr__` and `Vectors.__repr__` are debug output and are not modelled.
- Vectors.FromText: the result order is first occurrence. Python's order comes from set hashing and is unspecified, so the contract states only membership and absence of repeats.
- Vectors.FromTextOfStr: the equality includes order, which holds for the model's first-occurrence order. Python guarantees only that the names are the same.
- Vectors.AddUnit: the equality includes order, as for `FromTextOfStr`. Python guarantees only the same names.
- Seqs.DistinctOfNoDup: "unchanged, order included" is a fact about the model's de-duplication. Python's `list(set(...))` keeps only the elements.
- Kicad.StripLine: `isalpha` is modelled for ASCII letters only. Python also accepts other Unicode letters.
- Kicad.StripLineWords: it requires that no word is a lone "/". Such a word becomes an empty string, which vanishes when the line is split again.
- `Kicad.run` starts a subprocess and is not modelled.
- `Path` values are their `str()` forms. Path normalisation is not modelled.
- An exception raised part-way through `vec_subset` leaves the Python object partly modified: `del self.header[i]` has already run when `np.delete` fails. The model returns an error and no object.
- The copies that `_delete_columns` makes, and the fresh objects that `Vectors.__add__` returns, are immediate in a value model, so they have no contract.
- Signals.ValueLine: the case where a numpy array is the y value is modelled as an error with no output. A one-element array fails the `:.6g` format (`TypeError`); the truth test of a longer array fails (`ValueError`). A zero-dimensional or one-element truth test is not distinguished further.
- `SimResults.PrintTable` and `Signals.SignalsTable` join the lines with newlines. Their contracts are stated on the line lists (`PrintTableLines`, `SignalsTableLines`).
- The simulator driver, the netlist editor and the plotting and waveform modules of the repository are not part of this model.

## Findings

| source | as written | input that shows it | evidently intended | confidence | as-written member | corrected member |
|---|---|---|---|---|---|---|
| python/py4spice/sim_results.py:162-163 | the deletion list is sorted descending and its last entry is dropped, on the assumption that this entry is index 0 (the x-axis); when the x-axis name is requested, index 0 is not in the list, so the smallest unrequested column is kept, and when every name is requested the list is empty and `del [-1]` raises IndexError | header ["time","a","b"], request ["time","b"]: the table keeps "a"; header ["time","a"], request ["time","a"]: IndexError | keep column 0 and exactly the requested columns in header order; requesting every name keeps the table | not executed | SimResults.VecSubsetKeepsUnrequested | SimResults.VecSubsetIntended |

=== FILE: grids.dfy ===
/** Two-dimensional float arrays (numpy's 2-D `float64` arrays) as rows of
    reals. The column count is kept explicitly so that an array with no
    rows still has a width, as in numpy. */
module Grids {
  import opened Seqs

  datatype Grid = Grid(rows: seq<seq<real>>, cols: nat)

  predicate Rectangular(g: Grid) {
    forall r :: 0 <= r < |g.rows| ==> |g.rows[r]| == g.cols
  }

  type Matrix = g: Grid | Rectangular(g) witness Grid([], 0)

  /** numpy's `data[:, j]`. */
  function Column(m: Matrix, j: nat): (c: seq<real>)
    requires j < m.cols
    ensures |c| == |m.rows|
    ensures forall r :: 0 <= r < |m.rows| ==> c[r] == m.rows[r][j]
  {
    seq(|m.rows|, r requires 0 <= r < |m.rows| => m.rows[r][j])
  }

  /** numpy's `np.column_stack((v,))`: a one-column array holding `v`. */
  function ColumnOf(v: seq<real>): (m: Matrix)
    ensures m.cols == 1 && |m.rows| == |v|
    ensures forall r :: 0 <= r < |v| ==> m.rows[r] == [v[r]]
  {
    Grid(seq(|v|, r requires 0 <= r < |v| => [v[r]]), 1)
  }

  /** The columns whose mask entry is true, in order, from every row:
      numpy's `np.delete(data, idxs, axis=1)` seen from the survivors. */
  function KeepColumns(m: Matrix, keep: seq<bool>): (r: Matrix)
    requires |keep| == m.cols
    ensures r.cols == CountTrue(keep) && |r.rows| == |m.rows|
    ensures forall i :: 0 <= i < |m.rows| ==> r.rows[i] == KeepWhere(m.rows[i], keep)
  {
    var rows := seq(|m.rows|, i requires 0 <= i < |m.rows| => KeepWhere(m.rows[i], keep));
    assert forall i :: 0 <= i < |rows| ==> |rows[i]| == CountTrue(keep) by {
      forall i | 0 <= i < |rows| ensures |rows[i]| == CountTrue(keep) {
        KeepWhereLength(m.rows[i], keep);
      }
    }
    Grid(rows, CountTrue(keep))
  }

  /** `for i in idxs: data = np.delete(data, i, axis=1)` over indices in
      descending order. */
  function DeleteColumnsDescending(m: Matrix, idxs: seq<nat>): (r: Matrix)
    requires StrictlyDecreasing(idxs)
    requires forall k :: 0 <= k < |idxs| ==> idxs[k] < m.cols
    ensures r.cols == m.cols - |idxs| && |r.rows| == |m.rows|
    ensures forall i :: 0 <= i < |m.rows| ==> r.rows[i] == DeleteDescending(m.rows[i], idxs)
  {
    DescendingBound(idxs, m.cols);
    Grid(seq(|m.rows|, i requires 0 <= i < |m.rows| => DeleteDescending(m.rows[i], idxs)), m.cols - |idxs|)
  }

  /** Deleting no columns changes nothing. */
  lemma DeleteNoColumns(m: Matrix)
    ensures DeleteColumnsDescending(m, []) == m
  {
    var r := DeleteColumnsDescending(m, []);
    assert forall i :: 0 <= i < |m.rows| ==> r.rows[i] == m.rows[i];
    assert r.rows == m.rows;
  }

  /** Masking every row with an all-true mask changes nothing. */
  lemma KeepColumnsAll(m: Matrix, keep: seq<bool>)
    requires |keep| == m.cols && forall i :: 0 <= i < |keep| ==> keep[i]
    ensures KeepColumns(m, keep) == m
  {
    var r := KeepColumns(m, keep);
    forall i | 0 <= i < |m.rows| ensures r.rows[i] == m.rows[i] {
      KeepWhereAll(m.rows[i], keep);
    }
    assert r.rows == m.rows;
    KeepWhereLength(keep, keep);
    KeepWhereAll(keep, keep);
  }
}

=== FILE: kicad.dfy ===
/** The `Kicad` class: the command line that exports a schematic's SPICE
    netlist with `kicad-cli`, and the clean-up pass that strips the leading
    '/' KiCad puts on hierarchical net names. Paths are the strings their
    `str()` gives. */
module Kicad {
  import opened Seqs
  import opened Text

  /** A `Kicad` object: the exporter executable, the schematic and the
      netlist to write. */
  datatype Kicad = Kicad(kicadCmd: string, schFilename: string, netlistFilename: string)

  /** `cmd_args`: the exporter, the `sch export netlist` sub-command, the
      output option with the netlist path, the format option, and the
      schematic last. */
  function CmdArgs(k: Kicad): (args: seq<string>)
    ensures |args| == 9
    ensures args[0] == k.kicadCmd && args[5] == k.netlistFilename && args[8] == k.schFilename
    ensures args[1..5] == ["sch", "export", "netlist", "--output"] && args[6..8] == ["--format", "spice"]
  {
    [k.kicadCmd, "sch", "export", "netlist", "--output", k.netlistFilename, "--format", "spice", k.schFilename]
  }

  /** `cmd`: the arguments joined by single spaces; also what `str()`
      gives. */
  function Cmd(k: Kicad): (c: string)
    ensures c == k.kicadCmd + " " + "sch" + " " + "export" + " " + "netlist" + " " + "--output" + " " +
                 k.netlistFilename + " " + "--format" + " " + "spice" + " " + k.schFilename
  {
    var a := CmdArgs(k);
    JoinSteps(" ", a);
    Join(" ", a)
  }

  /** `" ".join` of nine arguments, spelled out. */
  lemma JoinSteps(sep: string, a: seq<string>)
    requires |a| == 9
    ensures Join(sep, a) == a[0] + sep + a[1] + sep + a[2] + sep + a[3] + sep + a[4] + sep + a[5] + sep + a[6] + sep + a[7] + sep + a[8]
  {
    assert Join(sep, a[8..]) == a[8];
    assert Join(sep, a[7..]) == a[7] + sep + Join(sep, a[8..]) by { assert a[7..][1..] == a[8..]; }
    assert Join(sep, a[6..]) == a[6] + sep + Join(sep, a[7..]) by { assert a[6..][1..] == a[7..]; }
    assert Join(sep, a[5..]) == a[5] + sep + Join(sep, a[6..]) by { assert a[5..][1..] == a[6..]; }
    assert Join(sep, a[4..]) == a[4] + sep + Join(sep, a[5..]) by { assert a[4..][1..] == a[5..]; }
    assert Join(sep, a[3..]) == a[3] + sep + Join(sep, a[4..]) by { assert a[3..][1..] == a[4..]; }
    assert Join(sep, a[2..]) == a[2] + sep + Join(sep, a[3..]) by { assert a[2..][1..] == a[3..]; }
    assert Join(sep, a[1..]) == a[1] + sep + Join(sep, a[2..]) by { assert a[1..][1..] == a[2..]; }
    assert Join(sep, a[0..]) == a[0] + sep + Join(sep, a[1..]) by { assert a[0..][1..] == a[1..]; }
    assert a[0..] == a;
  }

  /** When no path contains whitespace (or is empty), splitting the printed
      command recovers exactly the argument list that is run. */
  lemma CmdSplits(k: Kicad)
    requires IsToken(k.kicadCmd) && IsToken(k.schFilename) && IsToken(k.netlistFilename)
    ensures Words(Cmd(k)) == CmdArgs(k)
  {
    var args := CmdArgs(k);
    assert forall i :: 0 <= i < |args| ==> IsToken(args[i]) by {
      assert IsToken("sch") && IsToken("export") && IsToken("netlist");
      assert IsToken("--output") && IsToken("--format") && IsToken("spice");
    }
    WordsOfJoin(args);
  }

  // ---------------------------------------------------------------------
  // delete_forward_slashes
  // ---------------------------------------------------------------------

  /** `word[1:] if word.startswith("/") else word`. */
  function StripSlash(w: string): (r: string)
    ensures |w| > 0 && w[0] == '/' ==> w == "/" + r
    ensures !(|w| > 0 && w[0] == '/') ==> r == w
  {
    if |w| > 0 && w[0] == '/' then w[1..] else w
  }

  /** The rewrite of one line: a line starting with a letter (an element
      card) has its words re-joined with single spaces, each leading '/'
      removed, and a newline added; any other line (comment, directive,
      continuation, blank) is written back unchanged. */
  function StripLine(line: string): (r: string)
    requires |line| > 0
    ensures !IsAlpha(line[0]) ==> r == line
    ensures IsAlpha(line[0]) ==> Terminated(r) && r[..|r| - 1] == Join(" ", Map(StripSlash, Words(line)))
  {
    if IsAlpha(line[0]) then Join(" ", Map(StripSlash, Words(line))) + "\n" else line
  }

  /** The words of a rewritten card are the original words with their
      leading '/' removed, provided no word is a lone "/" (which would
      become an empty word and vanish on splitting). The first word, the
      element name, starts with a letter and is kept as it is. */
  lemma StripLineWords(line: string)
    requires |line| > 0 && IsAlpha(line[0])
    requires forall k :: 0 <= k < |Words(line)| ==> Words(line)[k] != "/"
    ensures Words(StripLine(line)) == Map(StripSlash, Words(line))
    ensures |Words(line)| > 0 && Words(StripLine(line))[0] == Words(line)[0]
  {
    var ws := Words(line);
    WordsAreTokens(line);
    var stripped := Map(StripSlash, ws);
    assert AllTokens(stripped) by {
      forall k | 0 <= k < |ws| ensures IsToken(stripped[k]) {
        assert IsToken(ws[k]);
        if |ws[k]| > 0 && ws[k][0] == '/' {
          assert |ws[k]| > 1;
          assert forall i :: 0 <= i < |stripped[k]| ==> stripped[k][i] == ws[k][i + 1];
        }
      }
    }
    WordsOfJoin(stripped);
    WordsSpaceTail(Join(" ", stripped), '\n');
    FirstWordOfAlpha(line);
  }

  /** A line starting with a letter has a first word starting with it. */
  lemma FirstWordOfAlpha(line: string)
    requires |line| > 0 && IsAlpha(line[0])
    ensures |Words(line)| > 0 && Words(line)[0][0] == line[0]
  {
    assert !IsSpace(line[0]);
    assert TokenLen(line) > 0;
  }

  /** A rewritten line is still a line: non-empty, newline only at the
      end. */
  lemma StripLineIsLine(line: string)
    requires IsLine(line)
    ensures IsLine(StripLine(line))
  {
    if IsAlpha(line[0]) {
      var ws := Words(line);
      WordsAreTokens(line);
      var j := Join(" ", Map(StripSlash, ws));
      NoNewlineInJoin(Map(StripSlash, ws));
      assert (j + "\n")[..|j|] == j;
    }
  }

  /** Joining newline-free words with spaces introduces no newline. */
  lemma {:induction false} NoNewlineInJoin(ws: seq<string>)
    requires forall k :: 0 <= k < |ws| ==> '\n' !in ws[k]
    ensures '\n' !in Join(" ", ws)
  {
    if |ws| > 1 {
      NoNewlineInJoin(ws[1..]);
    }
  }

  /** The rewrite of every line. */
  function StripLines(ls: seq<string>): (r: seq<string>)
    requires forall k :: 0 <= k < |ls| ==> |ls[k]| > 0
    ensures |r| == |ls| && forall k :: 0 <= k < |ls| ==> r[k] == StripLine(ls[k])
  {
    seq(|ls|, k requires 0 <= k < |ls| => StripLine(ls[k]))
  }

  /** `delete_forward_slashes`: the netlist text after every line has been
      rewritten. The file is read with `readlines()`, written back from the
      start and truncated, so its new content is exactly the rewritten lines
      one after another. */
  function DeleteForwardSlashes(text: string): (out: string)
    ensures text == "" ==> out == ""
    ensures ReadLines(out) == StripLines(ReadLines(text))
    ensures |ReadLines(out)| == |ReadLines(text)|
  {
    ReadLinesShape(text);
    var out := StripLines(ReadLines(text));
    StripLinesShaped(ReadLines(text));
    ReadLinesOfConcat(out);
    Concat(out)
  }

  /** Rewriting every line keeps the shape of a `readlines()` result: no
      line is merged, split or lost when the rewritten lines are read back. */
  lemma StripLinesShaped(ls: seq<string>)
    requires LineShaped(ls)
    ensures LineShaped(StripLines(ls))
  {
    var out := StripLines(ls);
    forall k | 0 <= k < |out| ensures IsLine(out[k]) {
      StripLineIsLine(ls[k]);
    }
    forall k | 0 <= k < |out| - 1 ensures Terminated(out[k]) {
      assert Terminated(ls[k]);
      if !IsAlpha(ls[k][0]) {
        assert out[k] == ls[k];
      }
    }
  }

  /** Text in which no line starts with a letter passes through unchanged. */
  lemma NoCardsUnchanged(text: string)
    requires forall k :: 0 <= k < |ReadLines(text)| ==> !IsAlpha(ReadLines(text)[k][0])
    ensures DeleteForwardSlashes(text) == text
  {
    ReadLinesShape(text);
    assert StripLines(ReadLines(text)) == ReadLines(text);
  }
}

=== FILE: outcomes.dfy ===
/** Failure-carrying results. The Python code signals failure by raising
    exceptions; the model returns them as values instead. */
module Outcomes {

  /** The exception classes the modelled code can raise. */
  datatype Failure =
    | ValueError   // a name missing from a list, a token that is not a number, max() of nothing
    | IndexError   // an index past the end of a list or array
    | TypeError    // a numpy array formatted with a format spec

  datatype Option<+T> = None | Some(value: T)

  datatype Outcome<+T> = Ok(value: T) | Err(failure: Failure) {
    predicate IsFailure() { Err? }

    function PropagateFailure<U>(): Outcome<U>
      requires Err?
    {
      Err(failure)
    }

    function Extract(): T
      requires Ok?
    {
      value
    }
  }
}

=== FILE: seqs.dfy ===
/** Generic sequence facts shared by the result-table, signal and vector
    models: first-index lookup, masked selection, index deletion in
    descending order, and first-occurrence de-duplication. */
module Seqs {
  import opened Outcomes

  predicate NoDup<T(==)>(xs: seq<T>) {
    forall i, j :: 0 <= i < j < |xs| ==> xs[i] != xs[j]
  }

  predicate StrictlyIncreasing(xs: seq<nat>) {
    forall i, j :: 0 <= i < j < |xs| ==> xs[i] < xs[j]
  }

  predicate StrictlyDecreasing(xs: seq<nat>) {
    forall i, j :: 0 <= i < j < |xs| ==> xs[i] > xs[j]
  }

  /** `i` is the first position holding `x`. */
  predicate FirstAt<T(==)>(xs: seq<T>, x: T, i: nat) {
    i < |xs| && xs[i] == x && x !in xs[..i]
  }

  /** A value has at most one first position. */
  lemma FirstAtUnique<T>(xs: seq<T>, x: T)
    ensures forall i: nat, j: nat :: FirstAt(xs, x, i) && FirstAt(xs, x, j) ==> i == j
  {
  }

  /** Python's `xs[-1]`. */
  function Last<T>(xs: seq<T>): T
    requires |xs| > 0
  {
    xs[|xs| - 1]
  }

  /** Removing every occurrence of `x` leaves the other elements with their
      multiplicities. */
  lemma {:induction false} KeepOthersMultiset<T>(xs: seq<T>, m: seq<bool>, x: T)
    requires |m| == |xs| && forall i :: 0 <= i < |xs| ==> (m[i] <==> xs[i] != x)
    ensures multiset(KeepWhere(xs, m)) == multiset(xs)[x := 0]
  {
    if |xs| > 0 {
      var init, last := xs[..|xs| - 1], xs[|xs| - 1];
      var tail := if m[|xs| - 1] then [last] else [];
      KeepOthersMultiset(init, m[..|xs| - 1], x);
      assert KeepWhere(xs, m) == KeepWhere(init, m[..|xs| - 1]) + tail;
      assert xs == init + [last];
      assert multiset(xs) == multiset(init) + multiset{last};
      assert multiset(tail) == multiset{last}[x := 0];
    } else {
      assert KeepWhere(xs, m) == [];
    }
  }

  /** The element-wise image of a sequence. */
  function Map<T, U>(f: T -> U, xs: seq<T>): (r: seq<U>)
    ensures |r| == |xs|
    ensures forall i :: 0 <= i < |xs| ==> r[i] == f(xs[i])
  {
    seq(|xs|, i requires 0 <= i < |xs| => f(xs[i]))
  }

  /** Python's `list.index`: the position of the first element equal to `x`,
      or None where Python raises ValueError. */
  function FirstIndex<T(==)>(xs: seq<T>, x: T): (r: Option<nat>)
    ensures r.None? <==> x !in xs
    ensures r.Some? ==> FirstAt(xs, x, r.value)
  {
    if |xs| == 0 then None
    else if xs[0] == x then Some(0)
    else
      match FirstIndex(xs[1..], x)
      case None => None
      case Some(i) =>
        assert xs[..i + 1] == [xs[0]] + xs[1..][..i];
        Some(i + 1)
  }

  /** Any position holding the first occurrence of `x` is the one
      FirstIndex reports. */
  lemma FirstIndexUnique<T>(xs: seq<T>, i: nat)
    requires i < |xs| && xs[i] !in xs[..i]
    ensures FirstIndex(xs, xs[i]) == Some(i)
  {
  }

  function CountTrue(m: seq<bool>): nat {
    if |m| == 0 then 0 else CountTrue(m[..|m| - 1]) + (if m[|m| - 1] then 1 else 0)
  }

  /** The elements of `xs` at the positions where `keep` is true, in order:
      numpy's column deletion seen from the columns that survive. */
  function KeepWhere<T>(xs: seq<T>, keep: seq<bool>): (r: seq<T>)
    requires |keep| == |xs|
  {
    if |xs| == 0 then []
    else KeepWhere(xs[..|xs| - 1], keep[..|xs| - 1]) + (if keep[|xs| - 1] then [xs[|xs| - 1]] else [])
  }

  /** How many elements survive depends on the mask alone, so every row of
      a matrix masked the same way keeps the same width. */
  lemma {:induction false} KeepWhereLength<T>(xs: seq<T>, keep: seq<bool>)
    requires |keep| == |xs|
    ensures |KeepWhere(xs, keep)| == CountTrue(keep)
  {
    if |xs| > 0 {
      KeepWhereLength(xs[..|xs| - 1], keep[..|xs| - 1]);
    }
  }

  /** Every element kept comes from the input. */
  lemma {:induction false} KeepWhereWithin<T>(xs: seq<T>, keep: seq<bool>)
    requires |keep| == |xs|
    ensures forall k :: 0 <= k < |KeepWhere(xs, keep)| ==> KeepWhere(xs, keep)[k] in xs
  {
    if |xs| > 0 {
      var init := xs[..|xs| - 1];
      KeepWhereWithin(init, keep[..|xs| - 1]);
      assert forall x :: x in init ==> x in xs;
    }
  }

  /** Every selected element comes from a kept position. */
  lemma {:induction false} KeepWhereFrom<T>(xs: seq<T>, keep: seq<bool>)
    requires |keep| == |xs|
    ensures forall k :: 0 <= k < |KeepWhere(xs, keep)| ==>
      exists i :: 0 <= i < |xs| && keep[i] && xs[i] == KeepWhere(xs, keep)[k]
  {
    if |xs| > 0 {
      var n := |xs| - 1;
      var xs', keep' := xs[..n], keep[..n];
      KeepWhereFrom(xs', keep');
      var r := KeepWhere(xs, keep);
      var init := KeepWhere(xs', keep');
      assert r == init + (if keep[n] then [xs[n]] else []);
      forall k | 0 <= k < |r| ensures exists i :: 0 <= i < |xs| && keep[i] && xs[i] == r[k] {
        if k < |init| {
          assert r[k] == init[k];
          var i :| 0 <= i < |xs'| && keep'[i] && xs'[i] == init[k];
          assert keep[i] && xs[i] == r[k];
        } else {
          assert keep[n] && xs[n] == r[k];
        }
      }
    } else {
      assert KeepWhere(xs, keep) == [];
    }
  }

  lemma {:induction false} KeepWhereAppend<T>(a: seq<T>, b: seq<T>, ma: seq<bool>, mb: seq<bool>)
    requires |ma| == |a| && |mb| == |b|
    ensures KeepWhere(a + b, ma + mb) == KeepWhere(a, ma) + KeepWhere(b, mb)
    decreases |b|
  {
    if |b| == 0 {
      assert a + b == a && ma + mb == ma;
    } else {
      var b', mb' := b[..|b| - 1], mb[..|b| - 1];
      assert (a + b)[..|a + b| - 1] == a + b';
      assert (ma + mb)[..|a + b| - 1] == ma + mb';
      KeepWhereAppend(a, b', ma, mb');
    }
  }

  lemma {:induction false} KeepWhereAll<T>(xs: seq<T>, keep: seq<bool>)
    requires |keep| == |xs| && forall i :: 0 <= i < |keep| ==> keep[i]
    ensures KeepWhere(xs, keep) == xs
  {
    if |xs| > 0 {
      KeepWhereAll(xs[..|xs| - 1], keep[..|xs| - 1]);
      assert xs == xs[..|xs| - 1] + [xs[|xs| - 1]];
    }
  }

  /** A kept first element leads the selection. */
  lemma {:induction false} KeepWhereHead<T>(xs: seq<T>, m: seq<bool>)
    requires |m| == |xs| && |xs| > 0 && m[0]
    ensures KeepWhere(xs, m) == [xs[0]] + KeepWhere(xs[1..], m[1..])
  {
    assert xs == [xs[0]] + xs[1..] && m == [m[0]] + m[1..];
    KeepWhereAppend([xs[0]], xs[1..], [m[0]], m[1..]);
    assert KeepWhere([xs[0]], [m[0]]) == [xs[0]];
  }

  /** Every element whose mask entry is true is selected. */
  lemma KeepWhereIncludes<T>(xs: seq<T>, m: seq<bool>, i: nat)
    requires |m| == |xs| && i < |xs| && m[i]
    ensures xs[i] in KeepWhere(xs, m)
  {
    assert xs == xs[..i + 1] + xs[i + 1..] && m == m[..i + 1] + m[i + 1..];
    KeepWhereAppend(xs[..i + 1], xs[i + 1..], m[..i + 1], m[i + 1..]);
    assert xs[..i + 1][..i] == xs[..i] && m[..i + 1][..i] == m[..i];
  }

  /** Distinct indices below `n`, listed in descending order, number at
      most `n`. */
  lemma {:induction false} DescendingBound(idxs: seq<nat>, n: nat)
    requires StrictlyDecreasing(idxs)
    requires forall k :: 0 <= k < |idxs| ==> idxs[k] < n
    ensures |idxs| <= n
  {
    if |idxs| > 0 {
      DescendingBound(idxs[1..], idxs[0]);
    }
  }

  /** Python's `del xs[i]`. */
  function DeleteAt<T>(xs: seq<T>, i: nat): (r: seq<T>)
    requires i < |xs|
    ensures |r| == |xs| - 1
  {
    xs[..i] + xs[i + 1..]
  }

  /** A loop `for i in idxs: del xs[i]` over indices sorted in descending
      order, so that no deletion shifts a position still to be deleted. */
  function DeleteDescending<T>(xs: seq<T>, idxs: seq<nat>): (r: seq<T>)
    requires StrictlyDecreasing(idxs)
    requires forall k :: 0 <= k < |idxs| ==> idxs[k] < |xs|
    ensures |r| == |xs| - |idxs|
    decreases |idxs|
  {
    if |idxs| == 0 then xs
    else DeleteDescending(DeleteAt(xs, idxs[0]), idxs[1..])
  }

  /** The positions below `n` that a list of deletion indices leaves alone. */
  function Survivors(n: nat, idxs: seq<nat>): (m: seq<bool>)
    ensures |m| == n && forall i :: 0 <= i < n ==> (m[i] <==> i !in idxs)
  {
    seq(n, i => i !in idxs)
  }

  /** A mask that keeps every position from `i` on keeps all of `xs[i..]`. */
  lemma {:induction false} KeepAbove<T>(xs: seq<T>, m: seq<bool>, i: nat)
    requires |m| == |xs| && i <= |xs|
    requires forall j :: i <= j < |m| ==> m[j]
    ensures KeepWhere(xs, m) == KeepWhere(xs[..i], m[..i]) + xs[i..]
    decreases |xs|
  {
    if |xs| > i {
      var n := |xs|;
      KeepAbove(xs[..n - 1], m[..n - 1], i);
      assert xs[..n - 1][..i] == xs[..i] && m[..n - 1][..i] == m[..i];
      assert xs[i..] == xs[..n - 1][i..] + [xs[n - 1]];
    } else {
      assert xs[..i] == xs && m[..i] == m;
    }
  }

  /** A mask that drops position `i` and keeps everything after it. */
  lemma KeepHole<T>(xs: seq<T>, m: seq<bool>, i: nat)
    requires |m| == |xs| && i < |xs|
    requires !m[i] && forall j :: i < j < |m| ==> m[j]
    ensures KeepWhere(xs, m) == KeepWhere(xs[..i], m[..i]) + xs[i + 1..]
  {
    KeepAbove(xs, m, i + 1);
    var xs', m' := xs[..i + 1], m[..i + 1];
    assert xs'[..i] == xs[..i] && m'[..i] == m[..i] && !m'[i];
    assert KeepWhere(xs', m') == KeepWhere(xs'[..i], m'[..i]);
  }

  /** Survivors of the remaining (smaller) positions, seen below the
      largest one. */
  lemma SurvivorsBelow(n: nat, n': nat, idxs: seq<nat>)
    requires n' + 1 == n && |idxs| > 0 && idxs[0] < n
    requires forall k :: 0 < k < |idxs| ==> idxs[k] < idxs[0]
    ensures Survivors(n', idxs[1..])[..idxs[0]] == Survivors(n, idxs)[..idxs[0]]
    ensures forall j :: idxs[0] <= j < n' ==> Survivors(n', idxs[1..])[j]
    ensures !Survivors(n, idxs)[idxs[0]]
    ensures forall j :: idxs[0] < j < n ==> Survivors(n, idxs)[j]
  {
    var i, rest := idxs[0], idxs[1..];
    var m, m' := Survivors(n, idxs), Survivors(n', rest);
    assert forall k :: 0 <= k < |rest| ==> rest[k] == idxs[k + 1];
    forall j | 0 <= j < i ensures m'[j] == m[j] {
      if j in idxs {
        var k :| 0 <= k < |idxs| && idxs[k] == j;
        assert rest[k - 1] == j;
      }
      if j in rest {
        var k :| 0 <= k < |rest| && rest[k] == j;
        assert idxs[k + 1] == j;
      }
    }
    forall j | i <= j < n' ensures m'[j] {
      assert forall k :: 0 <= k < |rest| ==> rest[k] != j;
    }
    forall j | i < j < n ensures m[j] {
      assert forall k :: 0 <= k < |idxs| ==> idxs[k] != j;
    }
  }

  /** Deleting the largest listed position first leaves the other
      positions' survivors where they were. */
  lemma DeleteLargestStep<T>(xs: seq<T>, idxs: seq<nat>)
    requires |idxs| > 0 && StrictlyDecreasing(idxs)
    requires forall k :: 0 <= k < |idxs| ==> idxs[k] < |xs|
    ensures KeepWhere(DeleteAt(xs, idxs[0]), Survivors(|xs| - 1, idxs[1..])) == KeepWhere(xs, Survivors(|xs|, idxs))
  {
    var i := idxs[0];
    var ys := DeleteAt(xs, i);
    var m, m' := Survivors(|xs|, idxs), Survivors(|ys|, idxs[1..]);
    SurvivorsBelow(|xs|, |ys|, idxs);
    KeepAbove(ys, m', i);
    KeepHole(xs, m, i);
    assert ys[..i] == xs[..i] && ys[i..] == xs[i + 1..];
  }

  /** Deleting indices one at a time in descending order removes exactly
      the listed positions and keeps the rest in order. */
  lemma {:induction false} DeleteDescendingKeeps<T>(xs: seq<T>, idxs: seq<nat>)
    requires StrictlyDecreasing(idxs)
    requires forall k :: 0 <= k < |idxs| ==> idxs[k] < |xs|
    ensures DeleteDescending(xs, idxs) == KeepWhere(xs, Survivors(|xs|, idxs))
    decreases |idxs|
  {
    if |idxs| == 0 {
      KeepWhereAll(xs, Survivors(|xs|, idxs));
    } else {
      var ys := DeleteAt(xs, idxs[0]);
      assert StrictlyDecreasing(idxs[1..]) && forall k :: 0 <= k < |idxs[1..]| ==> idxs[1..][k] < |ys|;
      DeleteDescendingKeeps(ys, idxs[1..]);
      DeleteLargestStep(xs, idxs);
    }
  }

  /** Deleting positions introduces nothing new: every survivor was an
      element of the original. */
  lemma DeleteDescendingWithin<T>(xs: seq<T>, idxs: seq<nat>)
    requires StrictlyDecreasing(idxs)
    requires forall k :: 0 <= k < |idxs| ==> idxs[k] < |xs|
    ensures forall k :: 0 <= k < |DeleteDescending(xs, idxs)| ==> DeleteDescending(xs, idxs)[k] in xs
  {
    DeleteDescendingKeeps(xs, idxs);
    KeepWhereWithin(xs, Survivors(|xs|, idxs));
  }

  /** The ascending positions at which `m` is true: a Python list
      comprehension `[i for i, x in enumerate(xs) if P(x)]`. */
  function IndicesWhere(m: seq<bool>): (r: seq<nat>)
    ensures StrictlyIncreasing(r)
    ensures forall k :: 0 <= k < |r| ==> r[k] < |m| && m[r[k]]
    ensures forall i :: 0 <= i < |m| && m[i] ==> i in r
  {
    if |m| == 0 then []
    else
      var init := IndicesWhere(m[..|m| - 1]);
      init + (if m[|m| - 1] then [|m| - 1] else [])
  }

  function Reverse<T>(xs: seq<T>): (r: seq<T>)
    ensures |r| == |xs|
    ensures forall i :: 0 <= i < |xs| ==> r[i] == xs[|xs| - 1 - i]
  {
    if |xs| == 0 then [] else Reverse(xs[1..]) + [xs[0]]
  }

  /** Dropping the last entry of a reversed ascending list drops exactly
      its smallest element. */
  lemma ReverseDropLast(xs: seq<nat>)
    requires |xs| > 0 && StrictlyIncreasing(xs)
    ensures forall i :: i in Reverse(xs)[..|xs| - 1] <==> i in xs && i != xs[0]
  {
    var r := Reverse(xs);
    var d := r[..|xs| - 1];
    forall i ensures i in d <==> i in xs && i != xs[0] {
      if i in d {
        var k :| 0 <= k < |d| && d[k] == i;
        assert r[k] == xs[|xs| - 1 - k] && |xs| - 1 - k > 0;
      }
      if i in xs && i != xs[0] {
        var k :| 0 <= k < |xs| && xs[k] == i;
        assert k > 0 && d[|xs| - 1 - k] == i;
      }
    }
  }

  /** Reversing an ascending list gives the descending order Python's
      `sorted(xs, reverse=True)` produces for it. */
  lemma ReverseIncreasing(xs: seq<nat>)
    requires StrictlyIncreasing(xs)
    ensures StrictlyDecreasing(Reverse(xs))
    ensures forall i :: i in Reverse(xs) <==> i in xs
  {
    var r := Reverse(xs);
    forall i | i in r ensures i in xs {
      var k :| 0 <= k < |r| && r[k] == i;
      assert xs[|xs| - 1 - k] == i;
    }
    forall i | i in xs ensures i in r {
      var k :| 0 <= k < |xs| && xs[k] == i;
      assert r[|xs| - 1 - k] == i;
    }
  }

  /** Reference de-duplication: each value at its first occurrence, in
      original order. */
  function Distinct<T(==)>(xs: seq<T>): (r: seq<T>)
    ensures NoDup(r)
    ensures forall k :: 0 <= k < |r| ==> r[k] in xs
    ensures forall k :: 0 <= k < |xs| ==> xs[k] in r
  {
    if |xs| == 0 then []
    else
      var init, last := xs[..|xs| - 1], xs[|xs| - 1];
      var d := Distinct(init);
      assert xs == init + [last];
      if last in init then d else d + [last]
  }

  /** `m[i]` holds exactly when `xs[i]` is the first occurrence of its value. */
  function FirstOccurrences<T(==)>(xs: seq<T>): (m: seq<bool>)
    ensures |m| == |xs| && forall i :: 0 <= i < |xs| ==> (m[i] <==> xs[i] !in xs[..i])
  {
    seq(|xs|, i requires 0 <= i < |xs| => xs[i] !in xs[..i])
  }

  /** Keeping the first occurrence of every value is the reference
      de-duplication. */
  lemma {:induction false} KeepFirstIsDistinct<T>(xs: seq<T>)
    ensures KeepWhere(xs, FirstOccurrences(xs)) == Distinct(xs)
  {
    if |xs| > 0 {
      var init := xs[..|xs| - 1];
      assert FirstOccurrences(xs)[..|xs| - 1] == FirstOccurrences(init) by {
        forall i | 0 <= i < |init| ensures init[..i] == xs[..i] { }
      }
      KeepFirstIsDistinct(init);
    }
  }

  /** In a list without repeats every position is a first occurrence. */
  lemma NoDupAllFirst<T>(xs: seq<T>)
    requires NoDup(xs)
    ensures forall i :: 0 <= i < |xs| ==> xs[i] !in xs[..i]
  {
    forall i | 0 <= i < |xs| ensures xs[i] !in xs[..i] {
      assert forall j :: 0 <= j < i ==> xs[..i][j] == xs[j];
    }
  }

  /** On a list that has no repeats, de-duplication changes nothing. */
  lemma {:induction false} DistinctOfNoDup<T>(xs: seq<T>)
    requires NoDup(xs)
    ensures Distinct(xs) == xs
  {
    if |xs| > 0 {
      var init := xs[..|xs| - 1];
      DistinctOfNoDup(init);
      assert xs[|xs| - 1] !in init;
      assert xs == init + [xs[|xs| - 1]];
    }
  }
}

=== FILE: signals.dfy ===
/** The `Signals` class: an x-axis, a list of y signals and their labels,
    built from an ngspice plot file (a header line, then rows of numbers)
    or from a table file (one `name ... value` line per quantity). */
module Signals {
  import opened Outcomes
  import opened Seqs
  import opened Text
  import opened Grids
  import SimResults

  /** One entry of `y_data_list`: a plot signal is a list of samples, one
      per x value; a table value is a zero-dimensional numpy array holding
      a single number. */
  datatype Series = Scalar(v: real) | Samples(vs: seq<real>)

  /** A `Signals` object. */
  datatype SignalSet = SignalSet(xData: seq<real>, yData: seq<Series>, xLabel: string, yLabels: seq<string>)

  // ---------------------------------------------------------------------
  // _delete_columns
  // ---------------------------------------------------------------------

  /** Mask over `n` positions that is false exactly at the labels equal to
      `col`; positions past the labels are kept. */
  function Others(labels: seq<string>, col: string, n: nat): (m: seq<bool>)
    ensures |m| == n && forall i :: 0 <= i < n ==> (m[i] <==> i >= |labels| || labels[i] != col)
  {
    seq(n, i requires 0 <= i < n => i >= |labels| || labels[i] != col)
  }

  /** The positions of `col` among the labels, largest first. */
  function MatchesDescending(labels: seq<string>, col: string): (idxs: seq<nat>)
    ensures StrictlyDecreasing(idxs)
    ensures forall i: nat :: i in idxs <==> i < |labels| && labels[i] == col
  {
    var m := seq(|labels|, i requires 0 <= i < |labels| => labels[i] == col);
    var up := IndicesWhere(m);
    ReverseIncreasing(up);
    Reverse(up)
  }

  /** The first entry is the largest position of `col`. */
  lemma MatchesLargest(labels: seq<string>, col: string, i: nat)
    requires i < |labels| && labels[i] == col
    ensures |MatchesDescending(labels, col)| > 0
    ensures i <= MatchesDescending(labels, col)[0]
  {
    var idxs := MatchesDescending(labels, col);
    assert i in idxs;
  }

  /** Deleting the positions of `col` keeps exactly the `Others` mask, for
      any list at least as long as the largest such position. */
  lemma MatchesSurvivors(labels: seq<string>, col: string, n: nat)
    requires forall i :: i in MatchesDescending(labels, col) ==> i < n
    ensures Survivors(n, MatchesDescending(labels, col)) == Others(labels, col, n)
  {
  }

  /** What deleting every match of `col` from a list long enough leaves. */
  lemma DeleteMatches<T>(col: string, labels: seq<string>, xs: seq<T>)
    requires col in labels
    requires MatchesDescending(labels, col)[0] < |xs|
    ensures forall k :: 0 <= k < |MatchesDescending(labels, col)| ==> MatchesDescending(labels, col)[k] < |xs|
    ensures DeleteDescending(xs, MatchesDescending(labels, col)) == KeepWhere(xs, Others(labels, col, |xs|))
  {
    var idxs := MatchesDescending(labels, col);
    MatchesSurvivors(labels, col, |xs|);
    DeleteDescendingKeeps(xs, idxs);
  }

  /** Masking out `col` removes every occurrence of it and nothing else. */
  lemma RemoveLabel(col: string, labels: seq<string>)
    ensures var kept := KeepWhere(labels, Others(labels, col, |labels|));
            col !in kept && multiset(kept) == multiset(labels)[col := 0]
  {
    var kept := KeepWhere(labels, Others(labels, col, |labels|));
    KeepOthersMultiset(labels, Others(labels, col, |labels|), col);
    assert multiset(kept)[col] == 0;
  }

  /** `_delete_columns`: every label equal to `col`, and the data entry at
      the same position, is deleted, right to left. When `col` is absent the
      inputs come back unchanged. A position past the end of the data makes
      `del` raise IndexError. */
  function DeleteColumns<T>(col: string, labels: seq<string>, data: seq<T>): (r: Outcome<(seq<string>, seq<T>)>)
    ensures col !in labels ==> r == Ok((labels, data))
    ensures r.Err? <==> exists i :: 0 <= i < |labels| && labels[i] == col && i >= |data|
    ensures r.Err? ==> r.failure == IndexError
    ensures r.Ok? ==> col !in r.value.0
    ensures r.Ok? ==> r.value.0 == KeepWhere(labels, Others(labels, col, |labels|))
    ensures r.Ok? ==> r.value.1 == KeepWhere(data, Others(labels, col, |data|))
  {
    if col !in labels then
      KeepWhereAll(labels, Others(labels, col, |labels|));
      KeepWhereAll(data, Others(labels, col, |data|));
      Ok((labels, data))
    else
      var idxs := MatchesDescending(labels, col);
      if idxs[0] >= |data| then
        assert idxs[0] in idxs;
        Err(IndexError)
      else
        assert forall i :: 0 <= i < |labels| && labels[i] == col ==> i < |data| by {
          forall i | 0 <= i < |labels| && labels[i] == col { MatchesLargest(labels, col, i); }
        }
        DeleteMatches(col, labels, labels);
        DeleteMatches(col, labels, data);
        RemoveLabel(col, labels);
        Ok((DeleteDescending(labels, idxs), DeleteDescending(data, idxs)))
  }

  // ---------------------------------------------------------------------
  // from_spice_plot
  // ---------------------------------------------------------------------

  /** Every row has the width of the first. */
  predicate Uniform(rows: seq<seq<string>>) {
    forall i :: 0 <= i < |rows| ==> |rows[i]| == |rows[0]|
  }

  /** `float()` accepts every token. */
  predicate AllParse(rows: seq<seq<string>>, parse: string -> Option<real>) {
    forall i, j :: 0 <= i < |rows| && 0 <= j < |rows[i]| ==> parse(rows[i][j]).Some?
  }

  /** `np.array(rows, dtype=float)`: ragged rows and tokens `float()`
      rejects raise ValueError. An empty list gives an array with no rows
      (and, in numpy, no second axis; width 0 here). */
  function ToFloatArray(rows: seq<seq<string>>, parse: string -> Option<real>): (r: Outcome<Matrix>)
    ensures r.Ok? <==> Uniform(rows) && AllParse(rows, parse)
    ensures r.Err? ==> r.failure == ValueError
    ensures r.Ok? ==> |r.value.rows| == |rows| && (|rows| > 0 ==> r.value.cols == |rows[0]|)
    ensures r.Ok? ==> forall i, j :: 0 <= i < |rows| && 0 <= j < |rows[i]| ==> Some(r.value.rows[i][j]) == parse(rows[i][j])
  {
    if Uniform(rows) && AllParse(rows, parse) then
      var n := if |rows| == 0 then 0 else |rows[0]|;
      var g := Grid(seq(|rows|, i requires 0 <= i < |rows| =>
                      seq(|rows[i]|, j requires 0 <= j < |rows[i]| => parse(rows[i][j]).value)), n);
      assert Rectangular(g);
      Ok(g)
    else Err(ValueError)
  }

  /** `float_array[:, 1:].T.tolist()`: the columns after the first. */
  function YColumns(m: Matrix): (cs: seq<seq<real>>)
    requires m.cols > 0
    ensures |cs| == m.cols - 1
    ensures forall k :: 0 <= k < |cs| ==> cs[k] == Column(m, k + 1)
  {
    seq(m.cols - 1, k requires 0 <= k < m.cols - 1 => Column(m, k + 1))
  }

  /** The file has a first line with at least one word. */
  predicate HasHeader(lines: seq<string>) {
    |lines| > 0 && |Words(lines[0])| > 0
  }

  /** The lines after the header form a rectangle of numbers. */
  predicate NumericRows(lines: seq<string>, parse: string -> Option<real>)
    requires |lines| > 0
  {
    Uniform(PlotRows(lines)) && AllParse(PlotRows(lines), parse)
  }

  /** The split data rows of a plot file: every line after the header. */
  function PlotRows(lines: seq<string>): seq<seq<string>>
    requires |lines| > 0
  {
    SplitLines(lines[1..])
  }

  /** The signal columns that survive dropping the repeated x columns. */
  function KeptColumns(first: seq<string>, arr: Matrix): seq<seq<real>>
    requires |first| > 0 && arr.cols > 0
  {
    KeepWhere(YColumns(arr), Others(first[1..], first[0], arr.cols - 1))
  }

  /** The y vectors of `s` are the kept signal columns of `arr`, in order,
      each as a series of samples. */
  predicate YDataFrom(s: SignalSet, first: seq<string>, arr: Matrix)
    requires |first| > 0 && arr.cols > 0
  {
    && |s.yData| == |KeptColumns(first, arr)|
    && forall k :: 0 <= k < |s.yData| ==> s.yData[k] == Samples(KeptColumns(first, arr)[k])
  }

  /** Some repeat of the x label `first[0]` among the later header words
      sits at or past the last of the `width - 1` signal columns, so
      `_delete_columns` indexes past the data. */
  predicate XRepeatBeyond(first: seq<string>, width: int)
    requires |first| > 0
  {
    exists i :: 0 <= i < |first| - 1 && first[1..][i] == first[0] && i >= width - 1
  }

  /** The tail of `from_spice_plot` once the header words `first` and the
      float array are in hand: split off the x column and drop the signals
      that repeat the x label. */
  function PlotSignals(first: seq<string>, arr: Matrix): (r: Outcome<SignalSet>)
    requires |first| > 0 && arr.cols > 0
    ensures r.Err? <==> exists i :: 0 <= i < |first| - 1 && first[1..][i] == first[0] && i >= arr.cols - 1
    ensures r.Err? ==> r.failure == IndexError
    ensures r.Ok? ==>
      && r.value.xLabel == first[0]
      && first[0] !in r.value.yLabels
      && r.value.yLabels == KeepWhere(first[1..], Others(first[1..], first[0], |first| - 1))
      && r.value.xData == Column(arr, 0)
      && YDataFrom(r.value, first, arr)
  {
    var labels, cols := first[1..], YColumns(arr);
    var res := DeleteColumns(first[0], labels, cols);
    if res.Err? then Err(res.failure)
    else
      var (ls, cs) := res.value;
      Ok(SignalSet(Column(arr, 0), seq(|cs|, k requires 0 <= k < |cs| => Samples(cs[k])), first[0], ls))
  }

  /** When the header has one word per column, no repeated x label lies
      past the data, so the plot succeeds, and the surviving labels and
      columns come in equal number: the same mask selects both, so the k-th
      label names the k-th y vector. */
  lemma PlotSignalsLockstep(first: seq<string>, arr: Matrix)
    requires |first| > 0 && arr.cols == |first|
    ensures PlotSignals(first, arr).Ok?
    ensures |PlotSignals(first, arr).value.yData| == |PlotSignals(first, arr).value.yLabels|
  {
    var m := Others(first[1..], first[0], |first| - 1);
    KeepWhereLength(first[1..], m);
    KeepWhereLength(YColumns(arr), m);
  }

  /** What a successful `from_spice_plot` returns for the header words
      `first` and the data rows: the x label is the first word and never a
      y label, the y labels are the other words minus its repeats, x is the
      first parsed column, and the y vectors are the kept columns. */
  predicate PlotOf(s: SignalSet, first: seq<string>, rows: seq<seq<string>>, parse: string -> Option<real>) {
    && |first| > 0 && |rows| > 0 && |rows[0]| > 0
    && s.xLabel == first[0]
    && s.xLabel !in s.yLabels
    && s.yLabels == KeepWhere(first[1..], Others(first[1..], first[0], |first| - 1))
    && |s.xData| == |rows|
    && (forall i :: 0 <= i < |rows| ==> |rows[i]| > 0 && Some(s.xData[i]) == parse(rows[i][0]))
    && ToFloatArray(rows, parse).Ok? && ToFloatArray(rows, parse).value.cols > 0
    && YDataFrom(s, first, ToFloatArray(rows, parse).value)
  }

  /** `from_spice_plot`: the header's first word labels the x-axis and the
      rest label the signals; the remaining lines are the numbers, column 0
      being x. ngspice repeats the x column for every vector it prints, so
      those labels and columns are dropped. An empty file, a blank header
      line, or no data (no rows, or rows without numbers) raise IndexError;
      ragged rows and bad numbers raise ValueError. */
  function FromSpicePlot(lines: seq<string>, parse: string -> Option<real>): (r: Outcome<SignalSet>)
    ensures !HasHeader(lines) ==> r == Err(IndexError)
    ensures HasHeader(lines) && !NumericRows(lines, parse) ==> r == Err(ValueError)
    ensures HasHeader(lines) && NumericRows(lines, parse) && (|lines| == 1 || |PlotRows(lines)[0]| == 0) ==> r == Err(IndexError)
    ensures HasHeader(lines) && NumericRows(lines, parse) && |lines| > 1 && |PlotRows(lines)[0]| > 0 ==>
      (r.Ok? <==> !XRepeatBeyond(Words(lines[0]), |PlotRows(lines)[0]|))
    ensures r.Err? ==> r.failure == IndexError || r.failure == ValueError
    ensures r.Ok? ==> |lines| > 0 && PlotOf(r.value, Words(lines[0]), PlotRows(lines), parse)
  {
    if |lines| == 0 then Err(IndexError)
    else
      var first, rows := Words(lines[0]), PlotRows(lines);
      assert |rows| == |lines| - 1;
      PlotOfWords(first, rows, parse)
  }

  /** `from_spice_plot` once the file is split into the header words
      `first` and the data rows. */
  function PlotOfWords(first: seq<string>, rows: seq<seq<string>>, parse: string -> Option<real>): (r: Outcome<SignalSet>)
    ensures |first| == 0 ==> r == Err(IndexError)
    ensures |first| > 0 && !(Uniform(rows) && AllParse(rows, parse)) ==> r == Err(ValueError)
    ensures |first| > 0 && Uniform(rows) && AllParse(rows, parse) && (|rows| == 0 || |rows[0]| == 0) ==> r == Err(IndexError)
    ensures |first| > 0 && Uniform(rows) && AllParse(rows, parse) && |rows| > 0 && |rows[0]| > 0 ==>
      (r.Ok? <==> !XRepeatBeyond(first, |rows[0]|))
    ensures r.Err? ==> r.failure == IndexError || r.failure == ValueError
    ensures r.Ok? ==> PlotOf(r.value, first, rows, parse)
  {
    if |first| == 0 then Err(IndexError)
    else
      var arr :- ToFloatArray(rows, parse);
      if |arr.rows| == 0 || arr.cols == 0 then Err(IndexError)
      else PlotSignals(first, arr)
  }

  /** A plot file whose header has one word per data column, with a
      rectangle of numbers below it, is always read successfully. */
  lemma FromSpicePlotAligned(lines: seq<string>, parse: string -> Option<real>)
    requires HasHeader(lines) && |lines| > 1 && NumericRows(lines, parse)
    requires |Words(lines[0])| == |PlotRows(lines)[0]|
    ensures FromSpicePlot(lines, parse).Ok?
  {
    assert !XRepeatBeyond(Words(lines[0]), |PlotRows(lines)[0]|);
  }

  /** Without repeated x labels nothing is dropped: each label after the
      first names the data column at the same position. */
  lemma FromSpicePlotNoRepeats(lines: seq<string>, parse: string -> Option<real>)
    requires FromSpicePlot(lines, parse).Ok?
    requires Words(lines[0])[0] !in Words(lines[0])[1..]
    ensures var r, first, rows := FromSpicePlot(lines, parse).value, Words(lines[0]), PlotRows(lines);
            && r.yLabels == first[1..]
            && |r.yData| == |rows[0]| - 1
            && forall k, i :: 0 <= k < |r.yData| && 0 <= i < |rows| ==>
                 r.yData[k].Samples? && |r.yData[k].vs| == |rows| && Some(r.yData[k].vs[i]) == parse(rows[i][k + 1])
  {
    var r := FromSpicePlot(lines, parse).value;
    assert PlotOf(r, Words(lines[0]), PlotRows(lines), parse);
    PlotOfNoRepeats(r, Words(lines[0]), PlotRows(lines), parse);
  }

  /** The body of `FromSpicePlotNoRepeats`, stated for any plot result. */
  lemma PlotOfNoRepeats(r: SignalSet, first: seq<string>, rows: seq<seq<string>>, parse: string -> Option<real>)
    requires PlotOf(r, first, rows, parse)
    requires first[0] !in first[1..]
    ensures && r.yLabels == first[1..]
            && |r.yData| == |rows[0]| - 1
            && forall k, i :: 0 <= k < |r.yData| && 0 <= i < |rows| ==>
                 r.yData[k].Samples? && |r.yData[k].vs| == |rows| && Some(r.yData[k].vs[i]) == parse(rows[i][k + 1])
  {
    var arr := ToFloatArray(rows, parse).value;
    KeepWhereAll(first[1..], Others(first[1..], first[0], |first| - 1));
    KeepWhereAll(YColumns(arr), Others(first[1..], first[0], arr.cols - 1));
    assert KeptColumns(first, arr) == YColumns(arr);
    forall k, i | 0 <= k < |r.yData| && 0 <= i < |rows|
      ensures r.yData[k].Samples? && |r.yData[k].vs| == |rows| && Some(r.yData[k].vs[i]) == parse(rows[i][k + 1])
    {
      assert r.yData[k] == Samples(Column(arr, k + 1));
    }
  }

  // ---------------------------------------------------------------------
  // from_spice_table
  // ---------------------------------------------------------------------

  /** Some line holds no words, so `line.split()[0]` raises IndexError. */
  predicate HasBlank(wl: seq<seq<string>>) {
    exists i :: 0 <= i < |wl| && |wl[i]| == 0
  }

  /** `from_spice_table`: every line's first word is a label and its last
      word the value; the x-axis is the single point 0.0 with an empty
      label. All labels are collected before any value is converted, so a
      blank line wins over a bad number. */
  function FromSpiceTable(lines: seq<string>, parse: string -> Option<real>): (r: Outcome<SignalSet>)
    ensures r == Err(IndexError) <==> HasBlank(SplitLines(lines))
    ensures r == Err(ValueError) <==>
      !HasBlank(SplitLines(lines)) && exists i :: 0 <= i < |lines| && parse(Last(Words(lines[i]))).None?
    ensures r.Err? ==> r.failure == IndexError || r.failure == ValueError
    ensures r.Ok? ==>
      && r.value.xData == [0.0] && r.value.xLabel == ""
      && |r.value.yLabels| == |lines| && |r.value.yData| == |lines|
      && forall i :: 0 <= i < |lines| ==>
           && r.value.yLabels[i] == Words(lines[i])[0]
           && r.value.yData[i].Scalar?
           && Some(r.value.yData[i].v) == parse(Last(Words(lines[i])))
  {
    var wl := SplitLines(lines);
    if HasBlank(wl) then Err(IndexError)
    else if exists i :: 0 <= i < |wl| && parse(Last(wl[i])).None? then Err(ValueError)
    else
      Ok(SignalSet([0.0], seq(|wl|, i requires 0 <= i < |wl| => Scalar(parse(Last(wl[i])).value)), "",
                   seq(|wl|, i requires 0 <= i < |wl| => wl[i][0])))
  }

  /** On a file without blank lines the two table readers agree: the
      `Signals` labels are the `SimResults` header after "x-axis", and each
      scalar is the matching row of the `SimResults` column. */
  lemma TableReadersAgree(lines: seq<string>, parse: string -> Option<real>)
    requires !HasBlank(SplitLines(lines))
    ensures FromSpiceTable(lines, parse).Ok? <==> SimResults.TableProcessing(lines, parse).Ok?
    ensures FromSpiceTable(lines, parse).Ok? ==>
      var s, t := FromSpiceTable(lines, parse).value, SimResults.TableProcessing(lines, parse).value;
      && t.0 == ["x-axis"] + s.yLabels
      && forall k :: 0 <= k < |lines| ==> t.1.rows[k + 1] == [s.yData[k].v]
  {
    var wl := SplitLines(lines);
    SimResults.NonBlankAll(wl);
    if FromSpiceTable(lines, parse).Ok? {
      var s, t := FromSpiceTable(lines, parse).value, SimResults.TableProcessing(lines, parse).value;
      assert t.0 == ["x-axis"] + s.yLabels;
    }
  }

  // ---------------------------------------------------------------------
  // Lookups
  // ---------------------------------------------------------------------

  /** `self.y_data_list[self.y_labels.index(name)]`: ValueError for an
      unknown label, IndexError when the label's position has no data. */
  function Lookup(s: SignalSet, name: string): (r: Outcome<Series>)
    ensures name !in s.yLabels ==> r == Err(ValueError)
    ensures r.Err? ==> r.failure == ValueError || r.failure == IndexError
    ensures r.Ok? <==> exists i: nat :: FirstAt(s.yLabels, name, i) && i < |s.yData|
    ensures forall i: nat :: FirstAt(s.yLabels, name, i) ==>
              r == if i < |s.yData| then Ok(s.yData[i]) else Err(IndexError)
  {
    FirstAtUnique(s.yLabels, name);
    match FirstIndex(s.yLabels, name)
    case None => Err(ValueError)
    case Some(i) => if i < |s.yData| then Ok(s.yData[i]) else Err(IndexError)
  }

  /** `signal_value`: with a single x point the stored series is returned
      as it is; otherwise `interp` (scipy's `interp1d` built over the
      x-axis and the series, evaluated at `x`) decides the value. */
  function SignalValue(s: SignalSet, name: string, x: real,
                       interp: (seq<real>, Series, real) -> Outcome<real>): (r: Outcome<Series>)
    ensures Lookup(s, name).Err? ==> r == Lookup(s, name)
    ensures Lookup(s, name).Ok? && |s.xData| == 1 ==> r == Lookup(s, name)
    ensures Lookup(s, name).Ok? && |s.xData| != 1 ==>
      && (r.Ok? <==> interp(s.xData, Lookup(s, name).value, x).Ok?)
      && (r.Ok? ==> r.value == Scalar(interp(s.xData, Lookup(s, name).value, x).value))
      && (r.Err? ==> r.failure == interp(s.xData, Lookup(s, name).value, x).failure)
  {
    var y :- Lookup(s, name);
    if |s.xData| == 1 then Ok(y)
    else
      var v :- interp(s.xData, y, x);
      Ok(Scalar(v))
  }

  /** With a single x point the value does not depend on `x` or on the
      interpolator. */
  lemma SignalValueOnePoint(s: SignalSet, name: string, x1: real, x2: real,
                            interp1: (seq<real>, Series, real) -> Outcome<real>,
                            interp2: (seq<real>, Series, real) -> Outcome<real>)
    requires |s.xData| == 1
    ensures SignalValue(s, name, x1, interp1) == SignalValue(s, name, x2, interp2)
  {
  }

  /** Looking up the label of a table line (at its first occurrence) gives
      the number that line's last word parsed to. */
  lemma SignalValueOfTable(lines: seq<string>, parse: string -> Option<real>, i: nat, x: real,
                           interp: (seq<real>, Series, real) -> Outcome<real>)
    requires FromSpiceTable(lines, parse).Ok?
    requires i < |lines| && Words(lines[i])[0] !in FromSpiceTable(lines, parse).value.yLabels[..i]
    ensures parse(Last(Words(lines[i]))).Some?
    ensures SignalValue(FromSpiceTable(lines, parse).value, Words(lines[i])[0], x, interp)
            == Ok(Scalar(parse(Last(Words(lines[i]))).value))
  {
    var s := FromSpiceTable(lines, parse).value;
    assert FirstAt(s.yLabels, Words(lines[i])[0], i);
  }

  /** `x_axis_and_sigs`: the x-axis and the series of each requested label
      in request order; the first failing lookup decides the error. */
  function XAxisAndSigs(s: SignalSet, names: seq<string>): (r: Outcome<(seq<real>, seq<Series>)>)
    ensures r.Ok? <==> forall k :: 0 <= k < |names| ==> Lookup(s, names[k]).Ok?
    ensures r.Ok? ==>
      && r.value.0 == s.xData
      && |r.value.1| == |names|
      && forall k :: 0 <= k < |names| ==> Ok(r.value.1[k]) == Lookup(s, names[k])
    ensures r.Err? ==>
      exists k :: 0 <= k < |names| && Lookup(s, names[k]) == Err(r.failure) &&
                  forall j :: 0 <= j < k ==> Lookup(s, names[j]).Ok?
  {
    var sigs :- LookupAll(s, names);
    Ok((s.xData, sigs))
  }

  /** The series of `names` in order, failing at the first lookup that
      fails. */
  function LookupAll(s: SignalSet, names: seq<string>): (r: Outcome<seq<Series>>)
    ensures r.Ok? <==> forall k :: 0 <= k < |names| ==> Lookup(s, names[k]).Ok?
    ensures r.Ok? ==> |r.value| == |names| && forall k :: 0 <= k < |names| ==> Ok(r.value[k]) == Lookup(s, names[k])
    ensures r.Err? ==>
      exists k :: 0 <= k < |names| && Lookup(s, names[k]) == Err(r.failure) &&
                  forall j :: 0 <= j < k ==> Lookup(s, names[j]).Ok?
  {
    if |names| == 0 then Ok([])
    else
      match Lookup(s, names[0])
      case Err(e) => Err(e)
      case Ok(y) =>
        var rest := LookupAll(s, names[1..]);
        match rest
        case Err(e) =>
          LookupFailLater(s, names, e);
          Err(e)
        case Ok(ys) =>
          LookupAllLater(s, names);
          Ok([y] + ys)
  }

  /** A lookup failing after a successful first one fails one position
      later in the whole list. */
  lemma LookupFailLater(s: SignalSet, names: seq<string>, e: Failure)
    requires |names| > 0 && Lookup(s, names[0]).Ok?
    requires exists k :: 0 <= k < |names[1..]| && Lookup(s, names[1..][k]) == Err(e) &&
                         forall j :: 0 <= j < k ==> Lookup(s, names[1..][j]).Ok?
    ensures exists k :: 0 <= k < |names| && Lookup(s, names[k]) == Err(e) &&
                        forall j :: 0 <= j < k ==> Lookup(s, names[j]).Ok?
  {
    var k :| 0 <= k < |names[1..]| && Lookup(s, names[1..][k]) == Err(e) &&
             forall j :: 0 <= j < k ==> Lookup(s, names[1..][j]).Ok?;
    assert names[k + 1] == names[1..][k];
    forall j | 0 <= j < k + 1 ensures Lookup(s, names[j]).Ok? {
      if j > 0 {
        assert names[j] == names[1..][j - 1];
      }
    }
  }

  /** Every lookup succeeds iff the first one and all later ones do. */
  lemma LookupAllLater(s: SignalSet, names: seq<string>)
    requires |names| > 0
    ensures (forall k :: 0 <= k < |names| ==> Lookup(s, names[k]).Ok?) <==>
            Lookup(s, names[0]).Ok? && forall k :: 0 <= k < |names[1..]| ==> Lookup(s, names[1..][k]).Ok?
  {
    assert forall k :: 1 <= k < |names| ==> names[k] == names[1..][k - 1];
  }

  // ---------------------------------------------------------------------
  // signals_table
  // ---------------------------------------------------------------------

  /** The gap between the colon and the value: one space for a negative
      value (its minus sign takes the second), two otherwise. */
  function Gap(v: real): nat {
    if v < 0.0 then 2 else 3
  }

  /** A table line for `name` and `v`: the name right-aligned to `w`, a
      colon at column `w`, and the formatted value after the gap. */
  predicate Aligned(line: string, name: string, w: nat, v: real, fmt: real -> string)
    requires |name| <= w
  {
    && |line| >= w + Gap(v)
    && AllSpaces(line[..w - |name|]) && line[w - |name|..w] == name
    && line[w] == ':' && AllSpaces(line[w + 1..w + Gap(v)])
    && line[w + Gap(v)..] == fmt(v)
  }

  /** One value line. Comparing a multi-sample series with 0 raises
      ValueError (its truth value is ambiguous); formatting a one-sample
      series with `:.6g` raises TypeError. */
  function ValueLine(name: string, y: Series, w: nat, fmt: real -> string): (r: Outcome<string>)
    requires |name| <= w
    ensures r.Ok? <==> y.Scalar?
    ensures y.Samples? ==> r == Err(if |y.vs| == 1 then TypeError else ValueError)
    ensures r.Ok? ==> Aligned(r.value, name, w, y.v, fmt)
  {
    match y
    case Scalar(v) =>
      var line := RJust(name, w) + (if v < 0.0 then ": " else ":  ") + fmt(v);
      assert line[..w] == RJust(name, w);
      Ok(line)
    case Samples(vs) => Err(if |vs| == 1 then TypeError else ValueError)
  }

  /** The value line of one name: its value at `x`, then the line for it.
      The first failure of the two is the name's failure. */
  function NameLine(s: SignalSet, name: string, x: real, w: nat, fmt: real -> string,
                    interp: (seq<real>, Series, real) -> Outcome<real>): (r: Outcome<string>)
    requires |name| <= w
    ensures r.Ok? <==> Printable(s, name, x, interp)
    ensures SignalValue(s, name, x, interp).Err? ==> r == Err(SignalValue(s, name, x, interp).failure)
    ensures SignalValue(s, name, x, interp).Ok? && SignalValue(s, name, x, interp).value.Samples? ==>
              r == Err(if |SignalValue(s, name, x, interp).value.vs| == 1 then TypeError else ValueError)
    ensures r.Ok? ==> Aligned(r.value, name, w, SignalValue(s, name, x, interp).value.v, fmt)
  {
    var y :- SignalValue(s, name, x, interp);
    ValueLine(name, y, w, fmt)
  }

  /** The value lines for `names`, failing at the first name whose value
      fails or cannot be printed. */
  function ValueLines(s: SignalSet, names: seq<string>, x: real, w: nat, fmt: real -> string,
                      interp: (seq<real>, Series, real) -> Outcome<real>): (r: Outcome<seq<string>>)
    requires forall k :: 0 <= k < |names| ==> |names[k]| <= w
    ensures r.Ok? <==> forall k :: 0 <= k < |names| ==> Printable(s, names[k], x, interp)
    ensures r.Ok? ==> |r.value| == |names| && forall k :: 0 <= k < |names| ==>
              Aligned(r.value[k], names[k], w, SignalValue(s, names[k], x, interp).value.v, fmt)
    ensures r.Err? ==>
      exists k :: 0 <= k < |names| && NameLine(s, names[k], x, w, fmt, interp) == Err(r.failure) &&
                  forall j :: 0 <= j < k ==> Printable(s, names[j], x, interp)
  {
    if |names| == 0 then Ok([])
    else
      ScalarAllLater(s, names, x, interp);
      match NameLine(s, names[0], x, w, fmt, interp)
      case Err(e) => Err(e)
      case Ok(line) =>
        match ValueLines(s, names[1..], x, w, fmt, interp)
        case Err(e) =>
          PrintFailLater(s, names, x, w, fmt, interp, e);
          Err(e)
        case Ok(rest) =>
          AlignedCons(s, names, x, w, fmt, interp, line, rest);
          Ok([line] + rest)
  }

  /** A line failing after a printable first name fails one position later
      in the whole list. */
  lemma PrintFailLater(s: SignalSet, names: seq<string>, x: real, w: nat, fmt: real -> string,
                       interp: (seq<real>, Series, real) -> Outcome<real>, e: Failure)
    requires forall k :: 0 <= k < |names| ==> |names[k]| <= w
    requires |names| > 0 && Printable(s, names[0], x, interp)
    requires exists k :: 0 <= k < |names[1..]| && NameLine(s, names[1..][k], x, w, fmt, interp) == Err(e) &&
                         forall j :: 0 <= j < k ==> Printable(s, names[1..][j], x, interp)
    ensures exists k :: 0 <= k < |names| && NameLine(s, names[k], x, w, fmt, interp) == Err(e) &&
                        forall j :: 0 <= j < k ==> Printable(s, names[j], x, interp)
  {
    var k :| 0 <= k < |names[1..]| && NameLine(s, names[1..][k], x, w, fmt, interp) == Err(e) &&
             forall j :: 0 <= j < k ==> Printable(s, names[1..][j], x, interp);
    assert names[k + 1] == names[1..][k];
    forall j | 0 <= j < k + 1 ensures Printable(s, names[j], x, interp) {
      if j > 0 {
        assert names[j] == names[1..][j - 1];
      }
    }
  }

  /** Prefixing the first name's line to the later names' lines keeps every
      line aligned with its own name. */
  lemma AlignedCons(s: SignalSet, names: seq<string>, x: real, w: nat, fmt: real -> string,
                    interp: (seq<real>, Series, real) -> Outcome<real>, line: string, rest: seq<string>)
    requires |names| > 0 && |rest| == |names| - 1
    requires |names[0]| <= w && Printable(s, names[0], x, interp)
    requires Aligned(line, names[0], w, SignalValue(s, names[0], x, interp).value.v, fmt)
    requires forall k :: 0 <= k < |rest| ==>
               && |names[1..][k]| <= w && Printable(s, names[1..][k], x, interp)
               && Aligned(rest[k], names[1..][k], w, SignalValue(s, names[1..][k], x, interp).value.v, fmt)
    ensures forall k :: 0 <= k < |names| ==>
              && |names[k]| <= w && Printable(s, names[k], x, interp)
              && Aligned(([line] + rest)[k], names[k], w, SignalValue(s, names[k], x, interp).value.v, fmt)
  {
    var lines := [line] + rest;
    forall k | 1 <= k < |names|
      ensures |names[k]| <= w && Printable(s, names[k], x, interp) &&
              Aligned(lines[k], names[k], w, SignalValue(s, names[k], x, interp).value.v, fmt)
    {
      assert names[k] == names[1..][k - 1] && lines[k] == rest[k - 1];
    }
  }

  /** A name's value can be printed: it exists and is a single number. */
  ghost predicate Printable(s: SignalSet, name: string, x: real, interp: (seq<real>, Series, real) -> Outcome<real>) {
    SignalValue(s, name, x, interp).Ok? && SignalValue(s, name, x, interp).value.Scalar?
  }

  /** Every value is printable iff the first one and all later ones are. */
  lemma ScalarAllLater(s: SignalSet, names: seq<string>, x: real, interp: (seq<real>, Series, real) -> Outcome<real>)
    requires |names| > 0
    ensures (forall k :: 0 <= k < |names| ==> Printable(s, names[k], x, interp)) <==>
            Printable(s, names[0], x, interp) && forall k :: 0 <= k < |names[1..]| ==> Printable(s, names[1..][k], x, interp)
  {
    assert forall k :: 1 <= k < |names| ==> names[k] == names[1..][k - 1];
  }

  /** The lines of `signals_table`: a heading with the formatted x value,
      then one aligned line per name. `max` of no names raises ValueError
      before anything else happens. */
  function SignalsTableLines(s: SignalSet, names: seq<string>, x: real, fmt: real -> string,
                             interp: (seq<real>, Series, real) -> Outcome<real>): (r: Outcome<seq<string>>)
    ensures |names| == 0 ==> r == Err(ValueError)
    ensures r.Ok? <==> |names| > 0 && forall k :: 0 <= k < |names| ==> Printable(s, names[k], x, interp)
    ensures r.Err? && |names| > 0 ==>
      exists k :: 0 <= k < |names| && NameLine(s, names[k], x, MaxLen(names), fmt, interp) == Err(r.failure) &&
                  forall j :: 0 <= j < k ==> Printable(s, names[j], x, interp)
    ensures r.Ok? ==>
      && |r.value| == 1 + |names|
      && r.value[0] == "Signal values for x = " + fmt(x)
      && forall k :: 0 <= k < |names| ==>
           Aligned(r.value[1..][k], names[k], MaxLen(names), SignalValue(s, names[k], x, interp).value.v, fmt)
  {
    if |names| == 0 then Err(ValueError)
    else
      var body :- ValueLines(s, names, x, MaxLen(names), fmt, interp);
      var lines := ["Signal values for x = " + fmt(x)] + body;
      assert lines[1..] == body;
      Ok(lines)
  }

  /** `signals_table`: the lines joined by newlines. */
  function SignalsTable(s: SignalSet, names: seq<string>, x: real, fmt: real -> string,
                        interp: (seq<real>, Series, real) -> Outcome<real>): Outcome<string>
  {
    var lines :- SignalsTableLines(s, names, x, fmt, interp);
    Ok(Join("\n", lines))
  }

  /** For a single-point signal set only the heading depends on `x`. */
  lemma SignalsTableOnePoint(s: SignalSet, names: seq<string>, x1: real, x2: real, fmt: real -> string,
                             interp: (seq<real>, Series, real) -> Outcome<real>)
    requires |s.xData| == 1
    ensures SignalsTableLines(s, names, x1, fmt, interp).Ok? == SignalsTableLines(s, names, x2, fmt, interp).Ok?
    ensures SignalsTableLines(s, names, x1, fmt, interp).Ok? ==>
      SignalsTableLines(s, names, x1, fmt, interp).value[1..] == SignalsTableLines(s, names, x2, fmt, interp).value[1..]
  {
    if |names| > 0 {
      ValueLinesOnePoint(s, names, x1, x2, MaxLen(names), fmt, interp);
    }
  }

  lemma {:induction false} ValueLinesOnePoint(s: SignalSet, names: seq<string>, x1: real, x2: real, w: nat,
                                              fmt: real -> string, interp: (seq<real>, Series, real) -> Outcome<real>)
    requires |s.xData| == 1
    requires forall k :: 0 <= k < |names| ==> |names[k]| <= w
    ensures ValueLines(s, names, x1, w, fmt, interp) == ValueLines(s, names, x2, w, fmt, interp)
  {
    if |names| > 0 {
      assert forall k :: 1 <= k < |names| ==> names[k] == names[1..][k - 1];
      SignalValueOnePoint(s, names[0], x1, x2, interp, interp);
      ValueLinesOnePoint(s, names[1..], x1, x2, w, fmt, interp);
    }
  }
}

=== FILE: sim_results.dfy ===
/** The `SimResults` class: simulator output normalised into a header of
    column names and a float array whose column 0 is the x-axis. */
module SimResults {
  import opened Outcomes
  import opened Seqs
  import opened Text
  import opened Grids

  /** A `SimResults` object. The analysis type is the simulator's analysis
      name; which names count as single-point analyses is the caller's
      `tableData` set (the library's `TABLE_DATA`). */
  datatype SimResult = SimResult(analysisType: string, header: seq<string>, data: Matrix)

  // ---------------------------------------------------------------------
  // Single-point ("table") files: one `name ... value` line per quantity
  // ---------------------------------------------------------------------

  /** The word lists of the lines that hold at least one word, in file
      order. */
  function NonBlank(wl: seq<seq<string>>): (r: seq<seq<string>>)
    ensures forall k :: 0 <= k < |r| ==> |r[k]| > 0
  {
    if |wl| == 0 then []
    else if |wl[0]| == 0 then NonBlank(wl[1..])
    else [wl[0]] + NonBlank(wl[1..])
  }

  /** Without blank lines nothing is skipped. */
  lemma {:induction false} NonBlankAll(wl: seq<seq<string>>)
    requires forall i :: 0 <= i < |wl| ==> |wl[i]| > 0
    ensures NonBlank(wl) == wl
  {
    if |wl| > 0 {
      NonBlankAll(wl[1..]);
    }
  }

  /** Every non-blank line ends in a token `float()` accepts. */
  predicate ValuesParse(wl: seq<seq<string>>, parse: string -> Option<real>) {
    var nb := NonBlank(wl);
    forall k :: 0 <= k < |nb| ==> parse(Last(nb[k])).Some?
  }

  /** What a successful table parse yields: the header is "x-axis" and then
      the first word of every non-blank line; the data is one column holding
      0.0 and then the number each such line's last word parses to. */
  predicate TableParsed(wl: seq<seq<string>>, parse: string -> Option<real>, header: seq<string>, data: Matrix) {
    var nb := NonBlank(wl);
    && |header| == 1 + |nb|
    && header[0] == "x-axis"
    && (forall k :: 0 <= k < |nb| ==> header[k + 1] == nb[k][0])
    && data.cols == 1
    && |data.rows| == |header|
    && data.rows[0] == [0.0]
    && (forall k :: 0 <= k < |nb| ==> Some(data.rows[k + 1][0]) == parse(Last(nb[k])))
  }

  lemma ValuesParseCons(wl: seq<seq<string>>, parse: string -> Option<real>)
    requires |wl| > 0
    ensures |wl[0]| == 0 ==> NonBlank(wl) == NonBlank(wl[1..])
    ensures |wl[0]| > 0 ==> NonBlank(wl) == [wl[0]] + NonBlank(wl[1..])
    ensures ValuesParse(wl, parse) <==>
      (|wl[0]| == 0 || parse(Last(wl[0])).Some?) && ValuesParse(wl[1..], parse)
  {
    var nb, nb' := NonBlank(wl), NonBlank(wl[1..]);
    if |wl[0]| > 0 {
      assert nb == [wl[0]] + nb';
      assert nb[0] == wl[0];
      if ValuesParse(wl, parse) {
        forall k | 0 <= k < |nb'| ensures parse(Last(nb'[k])).Some? {
          assert nb'[k] == nb[k + 1];
        }
      }
      if parse(Last(wl[0])).Some? && ValuesParse(wl[1..], parse) {
        forall k | 0 <= k < |nb| ensures parse(Last(nb[k])).Some? {
          if k > 0 { assert nb[k] == nb'[k - 1]; }
        }
      }
    }
  }

  /** The names and values of the non-blank lines; fails at the first value
      `float()` rejects. */
  function TableRows(wl: seq<seq<string>>, parse: string -> Option<real>): (r: Outcome<(seq<string>, seq<real>)>)
    ensures r.Ok? <==> ValuesParse(wl, parse)
    ensures r.Err? ==> r.failure == ValueError
    ensures r.Ok? ==>
      var nb := NonBlank(wl);
      && |r.value.0| == |nb| && |r.value.1| == |nb|
      && (forall k :: 0 <= k < |nb| ==> r.value.0[k] == nb[k][0])
      && (forall k :: 0 <= k < |nb| ==> Some(r.value.1[k]) == parse(Last(nb[k])))
  {
    if |wl| == 0 then Ok(([], []))
    else
      var rest := TableRows(wl[1..], parse);
      ValuesParseCons(wl, parse);
      if |wl[0]| == 0 then rest
      else
        match parse(Last(wl[0]))
        case None => Err(ValueError)
        case Some(v) =>
          match rest
          case Err(e) => Err(e)
          case Ok((names, values)) => Ok(([wl[0][0]] + names, [v] + values))
  }

  /** `_table_processing`: the header starts with "x-axis" and the single
      data column with 0.0; each non-blank line adds its first word and the
      number its last word parses to. Blank lines add nothing. */
  function TableProcessing(lines: seq<string>, parse: string -> Option<real>): (r: Outcome<(seq<string>, Matrix)>)
    ensures r.Ok? <==> ValuesParse(SplitLines(lines), parse)
    ensures r.Err? ==> r.failure == ValueError
    ensures r.Ok? ==> TableParsed(SplitLines(lines), parse, r.value.0, r.value.1)
  {
    match TableRows(SplitLines(lines), parse)
    case Err(e) => Err(e)
    case Ok((names, values)) => Ok((["x-axis"] + names, ColumnOf([0.0] + values)))
  }

  /** A line with a single word supplies both the name and the value. */
  lemma OneWordLine(line: string, parse: string -> Option<real>)
    requires |Words(line)| == 1
    requires TableProcessing([line], parse).Ok?
    ensures var (header, data) := TableProcessing([line], parse).value;
            header == ["x-axis", Words(line)[0]] && parse(header[1]) == Some(data.rows[1][0])
  {
    var wl := SplitLines([line]);
    assert NonBlank(wl) == [Words(line)];
  }

  // ---------------------------------------------------------------------
  // Duplicate header columns
  // ---------------------------------------------------------------------

  /** The loop of `_find_duplicate_indexes` from position `i` on, with
      `seen` holding the names before `i`. */
  function DuplicateScan(s: seq<string>, i: nat, seen: set<string>): (r: seq<nat>)
    requires i <= |s|
    requires forall x :: x in seen <==> x in s[..i]
    ensures StrictlyIncreasing(r)
    ensures forall k :: 0 <= k < |r| ==> i <= r[k] < |s| && s[r[k]] in s[..r[k]]
    ensures forall j :: i <= j < |s| && s[j] in s[..j] ==> j in r
    decreases |s| - i
  {
    if i == |s| then []
    else
      assert s[..i + 1] == s[..i] + [s[i]];
      if s[i] in seen then [i] + DuplicateScan(s, i + 1, seen)
      else DuplicateScan(s, i + 1, seen + {s[i]})
  }

  /** `_find_duplicate_indexes`: the ascending positions whose name already
      occurred earlier in the list. */
  function FindDuplicateIndexes(s: seq<string>): (r: seq<nat>)
    ensures StrictlyIncreasing(r)
    ensures forall k :: 0 <= k < |r| ==> r[k] < |s|
    ensures forall i :: 0 <= i < |s| ==> (i in r <==> s[i] in s[..i])
  {
    DuplicateScan(s, 0, {})
  }

  /** `_remove_dups`: every repeated header name after its first occurrence
      is removed, and the data columns at the same positions with it.
      The header entries go one by one in descending index order; the data
      columns go in a single `np.delete`. */
  function RemoveDups(header: seq<string>, data: Matrix): (r: (seq<string>, Matrix))
    requires data.cols == |header|
    ensures NoDup(r.0)
    ensures r.0 == KeepWhere(header, FirstOccurrences(header))
    ensures r.1.cols == |r.0| && |r.1.rows| == |data.rows|
    ensures forall i :: 0 <= i < |data.rows| ==> r.1.rows[i] == KeepWhere(data.rows[i], FirstOccurrences(header))
  {
    var dups := FindDuplicateIndexes(header);
    var keep := Survivors(|header|, dups);
    assert keep == FirstOccurrences(header);
    ReverseIncreasing(dups);
    var desc := Reverse(dups);
    assert Survivors(|header|, desc) == keep;
    DeleteDescendingKeeps(header, desc);
    KeepFirstIsDistinct(header);
    KeepWhereLength(header, keep);
    (DeleteDescending(header, desc), KeepColumns(data, keep))
  }

  /** A header without repeats passes through `_remove_dups` unchanged,
      data included. */
  lemma RemoveDupsUnique(header: seq<string>, data: Matrix)
    requires data.cols == |header|
    ensures NoDup(header) ==> RemoveDups(header, data) == (header, data)
  {
    if NoDup(header) {
      var keep := FirstOccurrences(header);
      NoDupAllFirst(header);
      KeepWhereAll(header, keep);
      KeepColumnsAll(data, keep);
      var r := RemoveDups(header, data);
      assert r.1 == KeepColumns(data, keep);
    }
  }

  /** Removing duplicates twice is the same as removing them once. */
  lemma RemoveDupsIdempotent(header: seq<string>, data: Matrix)
    requires data.cols == |header|
    ensures var once := RemoveDups(header, data);
            RemoveDups(once.0, once.1) == once
  {
    var once := RemoveDups(header, data);
    RemoveDupsUnique(once.0, once.1);
  }

  // ---------------------------------------------------------------------
  // from_file dispatch
  // ---------------------------------------------------------------------

  /** `_plot_processing`'s header: the words of the first line (none for an
      empty file). */
  function PlotHeader(lines: seq<string>): (h: seq<string>)
    ensures AllTokens(h)
    ensures |lines| == 0 ==> h == []
    ensures |lines| > 0 ==> h == Words(lines[0])
    ensures |lines| > 0 && (forall i :: 0 <= i < |lines[0]| ==> IsSpace(lines[0][i])) ==> h == []
  {
    if |lines| == 0 then []
    else
      WordsAreTokens(lines[0]);
      WordsOfBlank(lines[0]);
      Words(lines[0])
  }

  /** `from_file`. Single-point analyses go through table parsing and are
      not de-duplicated; every other analysis takes the plot header and the
      already-parsed array `plotData` (numpy's `genfromtxt` of the remaining
      lines) through `_remove_dups`. */
  function FromFile(analysisType: string, tableData: set<string>, lines: seq<string>,
                    parse: string -> Option<real>, plotData: Matrix): (r: Outcome<SimResult>)
    requires analysisType !in tableData ==> plotData.cols == |PlotHeader(lines)|
    ensures r.Ok? ==> r.value.analysisType == analysisType
    ensures analysisType in tableData ==>
      && (r.Ok? <==> ValuesParse(SplitLines(lines), parse))
      && (r.Err? ==> r.failure == ValueError)
      && (r.Ok? ==> TableParsed(SplitLines(lines), parse, r.value.header, r.value.data))
    ensures analysisType !in tableData ==>
      var h := PlotHeader(lines);
      && r.Ok?
      && r.value.header == Distinct(h)
      && r.value.data.cols == |r.value.header|
      && |r.value.data.rows| == |plotData.rows|
      && (forall i :: 0 <= i < |plotData.rows| ==> r.value.data.rows[i] == KeepWhere(plotData.rows[i], FirstOccurrences(h)))
  {
    if analysisType in tableData then
      match TableProcessing(lines, parse)
      case Err(e) => Err(e)
      case Ok((header, data)) => Ok(SimResult(analysisType, header, data))
    else
      KeepFirstIsDistinct(PlotHeader(lines));
      var (header, data) := RemoveDups(PlotHeader(lines), plotData);
      Ok(SimResult(analysisType, header, data))
  }

  // ---------------------------------------------------------------------
  // vec_subset
  // ---------------------------------------------------------------------

  /** `set(vecs).issubset(header)`. */
  predicate Subset(vecs: seq<string>, header: seq<string>) {
    forall k :: 0 <= k < |vecs| ==> vecs[k] in header
  }

  /** Mask of the names that are requested. */
  function Requested(names: seq<string>, vecs: seq<string>): (m: seq<bool>)
    ensures |m| == |names| && forall i :: 0 <= i < |names| ==> (m[i] <==> names[i] in vecs)
  {
    seq(|names|, i requires 0 <= i < |names| => names[i] in vecs)
  }

  /** Mask of the names that are not requested: the positions `vec_subset`
      collects for deletion. */
  function Unrequested(names: seq<string>, vecs: seq<string>): (m: seq<bool>)
    ensures |m| == |names| && forall i :: 0 <= i < |names| ==> (m[i] <==> names[i] !in vecs)
  {
    seq(|names|, i requires 0 <= i < |names| => names[i] !in vecs)
  }

  /** The descending deletion list of `vec_subset` once its last (smallest)
      entry has been discarded. */
  function SubsetDrop(header: seq<string>, vecs: seq<string>): (drop: seq<nat>)
    requires |IndicesWhere(Unrequested(header, vecs))| > 0
    ensures StrictlyDecreasing(drop)
    ensures forall k :: 0 <= k < |drop| ==> drop[k] < |header| && header[drop[k]] !in vecs
    ensures forall i :: i in drop <==>
              i in IndicesWhere(Unrequested(header, vecs)) && i != IndicesWhere(Unrequested(header, vecs))[0]
  {
    var del := IndicesWhere(Unrequested(header, vecs));
    ReverseIncreasing(del);
    ReverseDropLast(del);
    var desc := Reverse(del);
    desc[..|desc| - 1]
  }

  /** `vec_subset` as written: the ascending positions of unrequested names
      are sorted into descending order, the last (smallest) one is discarded
      on the assumption that it is the x-axis column 0, and the rest are
      deleted from the header and from the data one by one. A request that
      is not a subset of the header leaves the table unchanged; a request
      naming every column leaves nothing to discard and fails; a deletion
      position beyond the data's width fails in `np.delete`. */
  function VecSubset(t: SimResult, vecs: seq<string>): (r: Outcome<SimResult>)
    ensures !Subset(vecs, t.header) ==> r == Ok(t)
    ensures Subset(vecs, t.header) && (forall i :: 0 <= i < |t.header| ==> t.header[i] in vecs) ==> r == Err(IndexError)
    ensures Subset(vecs, t.header) && |IndicesWhere(Unrequested(t.header, vecs))| > 0 ==>
      (r.Err? <==> exists k :: 0 <= k < |SubsetDrop(t.header, vecs)| && SubsetDrop(t.header, vecs)[k] >= t.data.cols)
    ensures r.Err? ==> r.failure == IndexError
    ensures r.Ok? ==> r.value.analysisType == t.analysisType && |r.value.data.rows| == |t.data.rows|
    ensures r.Ok? ==> forall k :: 0 <= k < |r.value.header| ==> r.value.header[k] in t.header
  {
    if !Subset(vecs, t.header) then Ok(t)
    else
      var del := IndicesWhere(Unrequested(t.header, vecs));
      if |del| == 0 then Err(IndexError)
      else
        var drop := SubsetDrop(t.header, vecs);
        if |drop| > 0 && drop[0] >= t.data.cols then Err(IndexError)
        else
          assert forall k :: 0 <= k < |drop| ==> drop[k] < t.data.cols;
          DeleteDescendingWithin(t.header, drop);
          Ok(t.(header := DeleteDescending(t.header, drop), data := DeleteColumnsDescending(t.data, drop)))
  }

  /** What `vec_subset` as written keeps when it succeeds on a subset
      request: exactly the header positions and data columns that are not
      in the deletion list, in order, in header and rows alike. */
  lemma VecSubsetSurvivors(t: SimResult, vecs: seq<string>)
    ensures Subset(vecs, t.header) && VecSubset(t, vecs).Ok? ==>
      && |IndicesWhere(Unrequested(t.header, vecs))| > 0
      && var drop, r := SubsetDrop(t.header, vecs), VecSubset(t, vecs).value;
         && r.header == KeepWhere(t.header, Survivors(|t.header|, drop))
         && r.data.cols == t.data.cols - |drop|
         && forall i :: 0 <= i < |t.data.rows| ==> r.data.rows[i] == KeepWhere(t.data.rows[i], Survivors(t.data.cols, drop))
  {
    if Subset(vecs, t.header) && VecSubset(t, vecs).Ok? {
      var drop := SubsetDrop(t.header, vecs);
      assert forall k :: 0 <= k < |drop| ==> drop[k] < t.data.cols;
      DeleteDescendingKeeps(t.header, drop);
      forall i | 0 <= i < |t.data.rows|
        ensures VecSubset(t, vecs).value.data.rows[i] == KeepWhere(t.data.rows[i], Survivors(t.data.cols, drop))
      {
        DeleteDescendingKeeps(t.data.rows[i], drop);
      }
    }
  }

  /** The columns a subset request evidently means to keep: the x-axis
      column 0 and every requested column. */
  function SubsetKeep(header: seq<string>, vecs: seq<string>): (m: seq<bool>)
    ensures |m| == |header| && forall i :: 0 <= i < |header| ==> (m[i] <==> i == 0 || header[i] in vecs)
  {
    seq(|header|, i requires 0 <= i < |header| => i == 0 || header[i] in vecs)
  }

  /** `vec_subset` as evidently intended: keep the x-axis column and exactly
      the requested columns, in header order, whether or not the x-axis name
      is itself among the requested names. */
  function VecSubsetIntended(t: SimResult, vecs: seq<string>): (r: Outcome<SimResult>)
    ensures !Subset(vecs, t.header) ==> r == Ok(t)
    ensures r.Err? <==> Subset(vecs, t.header) && t.data.cols != |t.header|
    ensures r.Err? ==> r.failure == IndexError
    ensures r.Ok? ==> r.value.analysisType == t.analysisType && |r.value.data.rows| == |t.data.rows|
    ensures r.Ok? && Subset(vecs, t.header) && |t.header| > 0 ==>
      && r.value.header == [t.header[0]] + KeepWhere(t.header[1..], Requested(t.header[1..], vecs))
      && r.value.data.cols == |r.value.header|
      && (forall i :: 0 <= i < |t.data.rows| ==>
            r.value.data.rows[i] == [t.data.rows[i][0]] + KeepWhere(t.data.rows[i][1..], Requested(t.header[1..], vecs)))
    ensures r.Ok? && Subset(vecs, t.header) ==> forall k :: 0 <= k < |vecs| ==> vecs[k] in r.value.header
    ensures Subset(vecs, t.header) && t.data.cols == |t.header| && (forall i :: 0 <= i < |t.header| ==> t.header[i] in vecs) ==>
      r == Ok(t)
  {
    if !Subset(vecs, t.header) then Ok(t)
    else if t.data.cols != |t.header| then Err(IndexError)
    else
      var keep := SubsetKeep(t.header, vecs);
      SubsetKeepFacts(t, vecs);
      Ok(t.(header := KeepWhere(t.header, keep), data := KeepColumns(t.data, keep)))
  }

  /** What keeping the `SubsetKeep` columns yields. */
  lemma SubsetKeepFacts(t: SimResult, vecs: seq<string>)
    requires Subset(vecs, t.header) && t.data.cols == |t.header|
    ensures var keep := SubsetKeep(t.header, vecs);
            var header := KeepWhere(t.header, keep);
            var data := KeepColumns(t.data, keep);
            && data.cols == |header|
            && (forall k :: 0 <= k < |vecs| ==> vecs[k] in header)
            && (|t.header| > 0 ==>
                  && header == [t.header[0]] + KeepWhere(t.header[1..], Requested(t.header[1..], vecs))
                  && forall i :: 0 <= i < |t.data.rows| ==>
                       data.rows[i] == [t.data.rows[i][0]] + KeepWhere(t.data.rows[i][1..], Requested(t.header[1..], vecs)))
            && ((forall i :: 0 <= i < |t.header| ==> t.header[i] in vecs) ==> header == t.header && data == t.data)
  {
    var h := t.header;
    var keep := SubsetKeep(h, vecs);
    var header := KeepWhere(h, keep);
    KeepWhereLength(h, keep);
    forall k | 0 <= k < |vecs| ensures vecs[k] in header {
      var i :| 0 <= i < |h| && h[i] == vecs[k];
      KeepWhereIncludes(h, keep, i);
    }
    if |h| > 0 {
      SubsetKeepHead(t, vecs);
    }
    if forall i :: 0 <= i < |h| ==> h[i] in vecs {
      KeepWhereAll(h, keep);
      KeepColumnsAll(t.data, keep);
    }
  }

  /** The intended mask keeps column 0 and then the requested columns. */
  lemma SubsetKeepHead(t: SimResult, vecs: seq<string>)
    requires t.data.cols == |t.header| && |t.header| > 0
    ensures var keep := SubsetKeep(t.header, vecs);
            && KeepWhere(t.header, keep) == [t.header[0]] + KeepWhere(t.header[1..], Requested(t.header[1..], vecs))
            && forall i :: 0 <= i < |t.data.rows| ==>
                 KeepColumns(t.data, keep).rows[i] ==
                 [t.data.rows[i][0]] + KeepWhere(t.data.rows[i][1..], Requested(t.header[1..], vecs))
  {
    var h := t.header;
    var keep := SubsetKeep(h, vecs);
    var data := KeepColumns(t.data, keep);
    assert keep[1..] == Requested(h[1..], vecs);
    KeepWhereHead(h, keep);
    forall i | 0 <= i < |t.data.rows|
      ensures data.rows[i] == [t.data.rows[i][0]] + KeepWhere(t.data.rows[i][1..], Requested(h[1..], vecs))
    {
      KeepWhereHead(t.data.rows[i], keep);
    }
  }

  /** When the x-axis name is not requested, the positions left for
      deletion are exactly the unrequested ones other than 0. */
  lemma SubsetDropSurvivors(h: seq<string>, vecs: seq<string>)
    requires |h| > 0 && h[0] !in vecs
    ensures |IndicesWhere(Unrequested(h, vecs))| > 0
    ensures Survivors(|h|, SubsetDrop(h, vecs)) == SubsetKeep(h, vecs)
  {
    var del := IndicesWhere(Unrequested(h, vecs));
    assert 0 in del;
    assert del[0] == 0;
    ReverseDropLast(del);
    var drop := SubsetDrop(h, vecs);
    assert forall i :: i in drop <==> i in del && i != 0;
  }

  /** When the x-axis name is not itself requested, the discarded smallest
      deletion position is indeed column 0, and the code as written does
      what was intended. */
  lemma VecSubsetAgrees(t: SimResult, vecs: seq<string>)
    requires Subset(vecs, t.header) && |t.header| > 0 && t.header[0] !in vecs
    requires t.data.cols == |t.header|
    ensures VecSubset(t, vecs) == VecSubsetIntended(t, vecs)
  {
    var h := t.header;
    SubsetDropSurvivors(h, vecs);
    var drop := SubsetDrop(h, vecs);
    var keep := SubsetKeep(h, vecs);
    DeleteDescendingKeeps(h, drop);
    KeepWhereLength(h, keep);
    var asWritten := DeleteColumnsDescending(t.data, drop);
    var intended := KeepColumns(t.data, keep);
    forall i | 0 <= i < |t.data.rows| ensures asWritten.rows[i] == intended.rows[i] {
      DeleteDescendingKeeps(t.data.rows[i], drop);
    }
    assert asWritten.rows == intended.rows;
  }

  /** The example table of the discrepancy below: the x-axis "time" and
      two signals. */
  function ExampleTable(): SimResult {
    SimResult("tran", ["time", "a", "b"], Grid([[0.0, 1.0, 2.0]], 3))
  }

  /** In the example only position 1 is unrequested, so nothing is left
      to delete once the smallest position is discarded. */
  lemma ExampleDrop()
    ensures Subset(["time", "b"], ExampleTable().header)
    ensures |IndicesWhere(Unrequested(ExampleTable().header, ["time", "b"]))| == 1
    ensures SubsetDrop(ExampleTable().header, ["time", "b"]) == []
  {
    ExampleSubset();
    ExampleDeleted();
    SingleDropIsEmpty(ExampleTable().header, ["time", "b"]);
  }

  /** Both requested names are columns of the example. */
  lemma ExampleSubset()
    ensures Subset(["time", "b"], ExampleTable().header)
  {
    var h := ExampleTable().header;
    var vecs: seq<string> := ["time", "b"];
    assert vecs[0] == h[0] && vecs[1] == h[2];
  }

  /** Position 1 is the only one collected for deletion. */
  lemma ExampleDeleted()
    ensures IndicesWhere(Unrequested(ExampleTable().header, ["time", "b"])) == [1]
  {
    ExampleUnrequested();
    ExampleIndices();
  }

  /** With a single unrequested position, that position is the one
      discarded and nothing is deleted. */
  lemma SingleDropIsEmpty(h: seq<string>, vecs: seq<string>)
    requires |IndicesWhere(Unrequested(h, vecs))| == 1
    ensures SubsetDrop(h, vecs) == []
  {
  }

  /** Only "a" is unrequested in the example. */
  lemma ExampleUnrequested()
    ensures Unrequested(ExampleTable().header, ["time", "b"]) == [false, true, false]
  {
    var h := ExampleTable().header;
    var vecs: seq<string> := ["time", "b"];
    assert h[0] in vecs && h[1] !in vecs && h[2] in vecs;
  }

  /** The one set position of the example mask. */
  lemma ExampleIndices()
    ensures IndicesWhere([false, true, false]) == [1]
  {
    assert IndicesWhere([false]) == [];
    assert [false, true, false][..2] == [false, true] && [false, true][..1] == [false];
    assert IndicesWhere([false, true]) == [1];
  }

  /** As written, asking for "time" and "b" changes nothing. */
  lemma ExampleAsWritten()
    ensures VecSubset(ExampleTable(), ["time", "b"]) == Ok(ExampleTable())
  {
    var t := ExampleTable();
    ExampleDrop();
    DeleteNoColumns(t.data);
    assert DeleteDescending(t.header, []) == t.header;
    assert VecSubset(t, ["time", "b"]) ==
      Ok(t.(header := DeleteDescending(t.header, []), data := DeleteColumnsDescending(t.data, [])));
  }

  /** As intended, asking for "time" and "b" keeps exactly those two. */
  lemma ExampleIntended()
    ensures VecSubsetIntended(ExampleTable(), ["time", "b"]).Ok?
    ensures VecSubsetIntended(ExampleTable(), ["time", "b"]).value.header == ["time", "b"]
  {
    ExampleSubset();
    ExampleKeep();
    ExampleKept();
  }

  /** The intended mask of the example keeps "time" and "b". */
  lemma ExampleKeep()
    ensures SubsetKeep(ExampleTable().header, ["time", "b"]) == [true, false, true]
  {
    var h := ExampleTable().header;
    var vecs: seq<string> := ["time", "b"];
    assert h[1] !in vecs && h[2] in vecs;
  }

  /** Masking the example header. */
  lemma ExampleKept()
    ensures KeepWhere(ExampleTable().header, [true, false, true]) == ["time", "b"]
  {
    var h: seq<string> := ["time", "a", "b"];
    var keep := [true, false, true];
    var h2, k2 := h[..2], keep[..2];
    var h1, k1 := h2[..1], k2[..1];
    assert KeepWhere(h1[..0], k1[..0]) == [];
    assert KeepWhere(h1, k1) == [h[0]];
    assert KeepWhere(h2, k2) == KeepWhere(h1, k1);
    assert KeepWhere(h, keep) == KeepWhere(h2, k2) + [h[2]];
  }

  /** When every name before position `j` is requested and the one at `j`
      is not, `j` is the smallest deletion position, the one discarded. */
  lemma SubsetDropSkips(h: seq<string>, vecs: seq<string>, j: nat)
    requires j < |h| && h[j] !in vecs
    requires forall i :: 0 <= i < j ==> h[i] in vecs
    ensures |IndicesWhere(Unrequested(h, vecs))| > 0
    ensures j !in SubsetDrop(h, vecs)
  {
  }

  /** The intended subset holds only the x-axis name and requested ones. */
  lemma IntendedHeaderRequested(t: SimResult, vecs: seq<string>)
    requires Subset(vecs, t.header) && t.data.cols == |t.header| && |t.header| > 0
    ensures VecSubsetIntended(t, vecs).Ok?
    ensures forall k :: 0 <= k < |VecSubsetIntended(t, vecs).value.header| ==>
      k == 0 || VecSubsetIntended(t, vecs).value.header[k] in vecs
  {
    var h := VecSubsetIntended(t, vecs).value.header;
    var tail, req := t.header[1..], Requested(t.header[1..], vecs);
    var kept := KeepWhere(tail, req);
    assert h == [t.header[0]] + kept;
    KeepWhereFrom(tail, req);
    forall k | 0 < k < |h| ensures h[k] in vecs {
      assert h[k] == kept[k - 1];
      var i :| 0 <= i < |tail| && req[i] && tail[i] == kept[k - 1];
    }
  }

  /** The discrepancy for every table: when the x-axis name is itself
      requested, the smallest unrequested position `j` is the one that is
      discarded from the deletion list, so as written the unrequested name
      at `j` stays in the header, while the intended subset drops it. */
  lemma VecSubsetKeepsUnrequested(t: SimResult, vecs: seq<string>, j: nat)
    requires Subset(vecs, t.header) && t.data.cols == |t.header|
    requires j < |t.header| && t.header[j] !in vecs
    requires forall i :: 0 <= i < j ==> t.header[i] in vecs
    requires t.header[0] in vecs
    ensures VecSubset(t, vecs).Ok? && t.header[j] in VecSubset(t, vecs).value.header
    ensures VecSubsetIntended(t, vecs).Ok? && t.header[j] !in VecSubsetIntended(t, vecs).value.header
  {
    AsWrittenKeeps(t, vecs, j);
    IntendedDrops(t, vecs, j);
  }

  /** As written, the unrequested name at `j` survives. */
  lemma AsWrittenKeeps(t: SimResult, vecs: seq<string>, j: nat)
    requires Subset(vecs, t.header) && t.data.cols == |t.header|
    requires j < |t.header| && t.header[j] !in vecs
    requires forall i :: 0 <= i < j ==> t.header[i] in vecs
    ensures VecSubset(t, vecs).Ok? && t.header[j] in VecSubset(t, vecs).value.header
  {
    var h := t.header;
    SubsetDropSkips(h, vecs, j);
    var drop := SubsetDrop(h, vecs);
    DeleteDescendingKeeps(h, drop);
    KeepWhereIncludes(h, Survivors(|h|, drop), j);
    assert VecSubset(t, vecs).value.header == DeleteDescending(h, drop);
  }

  /** As intended, no unrequested name other than the x-axis one
      survives. */
  lemma IntendedDrops(t: SimResult, vecs: seq<string>, j: nat)
    requires Subset(vecs, t.header) && t.data.cols == |t.header|
    requires j < |t.header| && t.header[j] !in vecs
    requires t.header[0] in vecs
    ensures VecSubsetIntended(t, vecs).Ok? && t.header[j] !in VecSubsetIntended(t, vecs).value.header
  {
    var h := t.header;
    IntendedHeaderRequested(t, vecs);
    var ih := VecSubsetIntended(t, vecs).value.header;
    assert ih[0] == h[0];
    forall k | 0 <= k < |ih| ensures ih[k] != h[j] {
    }
  }

  /** Asking for every column, x-axis included, fails as written although
      the evidently intended result is the whole table. */
  lemma VecSubsetAllFails()
    ensures var t := SimResult("tran", ["time", "a"], Grid([[0.0, 1.0]], 2));
            && VecSubset(t, ["time", "a"]) == Err(IndexError)
            && VecSubsetIntended(t, ["time", "a"]) == Ok(t)
  {
  }

  // ---------------------------------------------------------------------
  // print_table and the lookups
  // ---------------------------------------------------------------------

  /** The column where `print_table` starts a value: three past the longest
      name, one earlier for a negative value so that its digits line up
      with those of the non-negative ones. */
  function ValueColumn(header: seq<string>, v: real): nat
    requires |header| > 0
  {
    MaxLen(header) + (if v < 0.0 then 2 else 3)
  }

  /** The lines of `print_table`, one per (name, row) pair of `zip`, with
      the x-axis line popped; `render` is Python's `str` of a float.
      `max` of an empty header raises ValueError; `d[0]` of a zero-width
      row and popping from no lines raise IndexError. */
  function PrintTableLines(t: SimResult, render: real -> string): (r: Outcome<seq<string>>)
    ensures |t.header| == 0 ==> r == Err(ValueError)
    ensures r.Ok? <==> |t.header| > 0 && |t.data.rows| > 0 && t.data.cols > 0
    ensures r.Err? && |t.header| > 0 ==> r.failure == IndexError
    ensures r.Ok? ==>
      && |r.value| == (if |t.header| < |t.data.rows| then |t.header| else |t.data.rows|) - 1
      && forall k :: 0 <= k < |r.value| ==>
           var name, v := t.header[k + 1], t.data.rows[k + 1][0];
           var col := ValueColumn(t.header, v);
           && |name| < col <= |r.value[k]|
           && r.value[k][..|name|] == name
           && AllSpaces(r.value[k][|name|..col])
           && r.value[k][col..] == render(v)
  {
    if |t.header| == 0 then Err(ValueError)
    else
      var n := if |t.header| < |t.data.rows| then |t.header| else |t.data.rows|;
      if n == 0 || t.data.cols == 0 then Err(IndexError)
      else
        Ok(seq(n - 1, k requires 0 <= k < n - 1 =>
          var v := t.data.rows[k + 1][0];
          LJust(t.header[k + 1], ValueColumn(t.header, v)) + render(v)))
  }

  /** `print_table`'s result: the lines joined by newlines. */
  function PrintTable(t: SimResult, render: real -> string): Outcome<string> {
    var lines :- PrintTableLines(t, render);
    Ok(Join("\n", lines))
  }

  /** A parsed table prints one line per non-blank input line. */
  lemma PrintTableOfParsed(wl: seq<seq<string>>, parse: string -> Option<real>, t: SimResult, render: real -> string)
    requires TableParsed(wl, parse, t.header, t.data)
    ensures PrintTableLines(t, render).Ok?
    ensures |PrintTableLines(t, render).value| == |NonBlank(wl)|
  {
  }

  /** `single_column`: the data column under the first occurrence of the
      name. `list.index` raises ValueError for a missing name, and numpy
      raises IndexError when that position is beyond the data's width. */
  function SingleColumn(t: SimResult, name: string): (r: Outcome<seq<real>>)
    ensures name !in t.header ==> r == Err(ValueError)
    ensures r.Err? ==> r.failure == ValueError || r.failure == IndexError
    ensures r.Ok? <==> exists i: nat :: FirstAt(t.header, name, i) && i < t.data.cols
    ensures r.Ok? ==> exists i: nat :: FirstAt(t.header, name, i) && i < t.data.cols && r.value == Column(t.data, i)
  {
    FirstAtUnique(t.header, name);
    match FirstIndex(t.header, name)
    case None => Err(ValueError)
    case Some(i) => if i < t.data.cols then Ok(Column(t.data, i)) else Err(IndexError)
  }

  /** In a header without repeats, looking up the name at position `j`
      yields column `j`. */
  lemma SingleColumnOfUnique(t: SimResult, j: nat)
    requires NoDup(t.header) && j < |t.header| && t.data.cols == |t.header|
    ensures SingleColumn(t, t.header[j]) == Ok(Column(t.data, j))
  {
    NoDupAllFirst(t.header);
    FirstIndexUnique(t.header, j);
  }

  /** `x_axis_and_sigs`: column 0, then the column of each requested name
      in request order; the first failing lookup decides the error. */
  function XAxisAndSigs(t: SimResult, names: seq<string>): (r: Outcome<seq<seq<real>>>)
    ensures t.data.cols == 0 ==> r == Err(IndexError)
    ensures r.Ok? <==> t.data.cols > 0 && forall k :: 0 <= k < |names| ==> SingleColumn(t, names[k]).Ok?
    ensures r.Ok? ==>
      && |r.value| == 1 + |names|
      && r.value[0] == Column(t.data, 0)
      && forall k :: 0 <= k < |names| ==> r.value[k + 1] == SingleColumn(t, names[k]).value
    ensures r.Err? && t.data.cols > 0 ==>
      exists k :: 0 <= k < |names| && SingleColumn(t, names[k]) == Err(r.failure) &&
                  forall j :: 0 <= j < k ==> SingleColumn(t, names[j]).Ok?
  {
    if t.data.cols == 0 then Err(IndexError)
    else
      var sigs :- Columns(t, names);
      Ok([Column(t.data, 0)] + sigs)
  }

  /** The columns of `names` in order, failing at the first lookup that
      fails. */
  function Columns(t: SimResult, names: seq<string>): (r: Outcome<seq<seq<real>>>)
    ensures r.Ok? <==> forall k :: 0 <= k < |names| ==> SingleColumn(t, names[k]).Ok?
    ensures r.Ok? ==> |r.value| == |names| && forall k :: 0 <= k < |names| ==> r.value[k] == SingleColumn(t, names[k]).value
    ensures r.Err? ==>
      exists k :: 0 <= k < |names| && SingleColumn(t, names[k]) == Err(r.failure) &&
                  forall j :: 0 <= j < k ==> SingleColumn(t, names[j]).Ok?
  {
    if |names| == 0 then Ok([])
    else
      match SingleColumn(t, names[0])
      case Err(e) => Err(e)
      case Ok(c) =>
        var rest := Columns(t, names[1..]);
        match rest
        case Err(e) =>
          ColumnsFailLater(t, names, e);
          Err(e)
        case Ok(cs) =>
          ColumnsAllLater(t, names);
          Ok([c] + cs)
  }

  /** A lookup failing after a successful first one fails one position
      later in the whole list. */
  lemma ColumnsFailLater(t: SimResult, names: seq<string>, e: Failure)
    requires |names| > 0 && SingleColumn(t, names[0]).Ok?
    requires exists k :: 0 <= k < |names[1..]| && SingleColumn(t, names[1..][k]) == Err(e) &&
                         forall j :: 0 <= j < k ==> SingleColumn(t, names[1..][j]).Ok?
    ensures exists k :: 0 <= k < |names| && SingleColumn(t, names[k]) == Err(e) &&
                        forall j :: 0 <= j < k ==> SingleColumn(t, names[j]).Ok?
  {
    var k :| 0 <= k < |names[1..]| && SingleColumn(t, names[1..][k]) == Err(e) &&
             forall j :: 0 <= j < k ==> SingleColumn(t, names[1..][j]).Ok?;
    assert names[k + 1] == names[1..][k];
    forall j | 0 <= j < k + 1 ensures SingleColumn(t, names[j]).Ok? {
      if j > 0 {
        assert names[j] == names[1..][j - 1];
      }
    }
  }

  /** Every lookup succeeds iff the first one and all later ones do. */
  lemma ColumnsAllLater(t: SimResult, names: seq<string>)
    requires |names| > 0
    ensures (forall k :: 0 <= k < |names| ==> SingleColumn(t, names[k]).Ok?) <==>
            SingleColumn(t, names[0]).Ok? && forall k :: 0 <= k < |names[1..]| ==> SingleColumn(t, names[1..][k]).Ok?
  {
    assert forall k :: 1 <= k < |names| ==> names[k] == names[1..][k - 1];
  }

  /** `table_value`: the rendered first entry of the data row at the
      name's first position. Table results hold one row per header name. */
  function TableValue(t: SimResult, name: string, render: real -> string): (r: Outcome<string>)
    ensures name !in t.header ==> r == Err(ValueError)
    ensures r.Err? ==> r.failure == ValueError || r.failure == IndexError
    ensures r.Ok? <==> exists i: nat :: FirstAt(t.header, name, i) && i < |t.data.rows| && t.data.cols > 0
    ensures r.Ok? ==> exists i: nat :: FirstAt(t.header, name, i) && i < |t.data.rows| && t.data.cols > 0 &&
                                  r.value == render(t.data.rows[i][0])
  {
    FirstAtUnique(t.header, name);
    match FirstIndex(t.header, name)
    case None => Err(ValueError)
    case Some(i) => if i < |t.data.rows| && t.data.cols > 0 then Ok(render(t.data.rows[i][0])) else Err(IndexError)
  }

  /** Looking up the name of a non-blank table line (at its first
      occurrence) renders the number that line's last word parsed to. */
  lemma TableValueOfParsed(wl: seq<seq<string>>, parse: string -> Option<real>, t: SimResult,
                           render: real -> string, k: nat)
    requires TableParsed(wl, parse, t.header, t.data)
    requires k < |NonBlank(wl)| && NonBlank(wl)[k][0] !in t.header[..k + 1]
    ensures parse(Last(NonBlank(wl)[k])).Some?
    ensures TableValue(t, NonBlank(wl)[k][0], render) == Ok(render(parse(Last(NonBlank(wl)[k])).value))
  {
    FirstIndexUnique(t.header, k + 1);
  }
}

=== FILE: sim_results2.dfy ===
/** The `SimResults2` class: the same normalisation as `SimResults`
    (table parsing, duplicate-column removal, the `from_file` dispatch)
    without the lookups and printing. Its code follows `SimResults` step
    for step, so each operation here is the `SimResults` one, and the
    contracts restate what that shared behaviour guarantees. */
module SimResults2 {
  import opened Outcomes
  import opened Seqs
  import opened Text
  import opened Grids
  import SimResults

  /** `_find_duplicate_indexes`: the ascending positions whose name already
      occurred earlier. */
  function FindDuplicateIndexes(s: seq<string>): (r: seq<nat>)
    ensures StrictlyIncreasing(r)
    ensures forall i :: 0 <= i < |s| ==> (i in r <==> s[i] in s[..i])
    ensures forall k :: 0 <= k < |r| ==> r[k] < |s|
  {
    SimResults.FindDuplicateIndexes(s)
  }

  /** `_remove_dups`: every column whose name appeared before is dropped;
      what remains is the first occurrence of each name, in order, with
      its data column. */
  function RemoveDups(header: seq<string>, data: Matrix): (r: (seq<string>, Matrix))
    requires data.cols == |header|
    ensures r.0 == Distinct(header) && NoDup(r.0)
    ensures r.1.cols == |r.0| && |r.1.rows| == |data.rows|
    ensures forall i :: 0 <= i < |data.rows| ==> r.1.rows[i] == KeepWhere(data.rows[i], FirstOccurrences(header))
    ensures NoDup(header) ==> r == (header, data)
  {
    KeepFirstIsDistinct(header);
    SimResults.RemoveDupsUnique(header, data);
    SimResults.RemoveDups(header, data)
  }

  /** `from_file`: single-point analyses are table-parsed; every other
      analysis has its plot header and array de-duplicated. */
  function FromFile(analysisType: string, tableData: set<string>, lines: seq<string>,
                    parse: string -> Option<real>, plotData: Matrix): (r: Outcome<SimResults.SimResult>)
    requires analysisType !in tableData ==> plotData.cols == |SimResults.PlotHeader(lines)|
    ensures r.Ok? ==> r.value.analysisType == analysisType
    ensures analysisType in tableData ==>
      && (r.Ok? <==> SimResults.ValuesParse(SplitLines(lines), parse))
      && (r.Err? ==> r.failure == ValueError)
      && (r.Ok? ==> SimResults.TableParsed(SplitLines(lines), parse, r.value.header, r.value.data))
    ensures analysisType !in tableData ==>
      && r.Ok?
      && r.value.header == Distinct(SimResults.PlotHeader(lines))
      && r.value.data.cols == |r.value.header|
      && |r.value.data.rows| == |plotData.rows|
      && (forall i :: 0 <= i < |plotData.rows| ==>
            r.value.data.rows[i] == KeepWhere(plotData.rows[i], FirstOccurrences(SimResults.PlotHeader(lines))))
  {
    SimResults.FromFile(analysisType, tableData, lines, parse, plotData)
  }
}

=== FILE: text.dfy ===
/** Python string primitives the modelled code relies on: `str.split()`,
    `sep.join(...)`, `ljust`/`rjust`, `len(max(xs, key=len))`, and the
    line boundaries `readlines()` draws. Strings are sequences of
    characters; no encoding is modelled. */
module Text {
  import opened Seqs

  /** The characters Python's `str.split()` with no argument splits on. */
  predicate IsSpace(c: char) {
    || c == ' ' || c == '\t' || c == '\n' || c == '\r'
    || c == '\U{000B}' || c == '\U{000C}'
    || ('\U{001C}' <= c <= '\U{001F}')
    || c == '\U{0085}' || c == '\U{00A0}' || c == '\U{1680}'
    || ('\U{2000}' <= c <= '\U{200A}')
    || c == '\U{2028}' || c == '\U{2029}' || c == '\U{202F}'
    || c == '\U{205F}' || c == '\U{3000}'
  }

  /** ASCII letters; see the README for the non-ASCII letters left out. */
  predicate IsAlpha(c: char) {
    ('a' <= c <= 'z') || ('A' <= c <= 'Z')
  }

  /** A piece `str.split()` can produce: non-empty, no whitespace. */
  predicate IsToken(w: string) {
    |w| > 0 && forall i :: 0 <= i < |w| ==> !IsSpace(w[i])
  }

  predicate AllTokens(ws: seq<string>) {
    forall k :: 0 <= k < |ws| ==> IsToken(ws[k])
  }

  /** Length of the run of non-space characters at the start of `s`. */
  function TokenLen(s: string): (n: nat)
    ensures n <= |s|
    ensures forall i :: 0 <= i < n ==> !IsSpace(s[i])
    ensures n < |s| ==> IsSpace(s[n])
  {
    if |s| == 0 || IsSpace(s[0]) then 0 else 1 + TokenLen(s[1..])
  }

  /** Python's `s.split()`: the maximal runs of non-space characters. */
  function Words(s: string): (ws: seq<string>)
    decreases |s|
  {
    if |s| == 0 then []
    else if IsSpace(s[0]) then Words(s[1..])
    else
      var n := TokenLen(s);
      [s[..n]] + Words(s[n..])
  }

  /** Every piece `str.split()` yields is a token. */
  lemma {:induction false} WordsAreTokens(s: string)
    ensures AllTokens(Words(s))
    decreases |s|
  {
    if |s| > 0 {
      if IsSpace(s[0]) {
        WordsAreTokens(s[1..]);
      } else {
        WordsAreTokens(s[TokenLen(s)..]);
      }
    }
  }

  /** A line of whitespace only has no words. */
  lemma {:induction false} WordsOfBlank(s: string)
    ensures (forall i :: 0 <= i < |s| ==> IsSpace(s[i])) ==> Words(s) == []
    decreases |s|
  {
    if |s| > 0 {
      WordsOfBlank(s[1..]);
    }
  }

  /** Each line split into words, as `[line.split() for line in lines]`. */
  function SplitLines(lines: seq<string>): (r: seq<seq<string>>)
    ensures |r| == |lines|
    ensures forall i :: 0 <= i < |lines| ==> r[i] == Words(lines[i])
  {
    seq(|lines|, i requires 0 <= i < |lines| => Words(lines[i]))
  }

  /** Python's `sep.join(xs)`. */
  function Join(sep: string, xs: seq<string>): string {
    if |xs| == 0 then ""
    else if |xs| == 1 then xs[0]
    else xs[0] + sep + Join(sep, xs[1..])
  }

  lemma {:induction false} TokenLenOfToken(w: string, rest: string)
    requires IsToken(w)
    requires |rest| == 0 || IsSpace(rest[0])
    ensures TokenLen(w + rest) == |w|
    decreases |w|
  {
    if |w| > 1 {
      TokenLenOfToken(w[1..], rest);
      assert (w + rest)[1..] == w[1..] + rest;
    }
  }

  /** A token followed by a space and more text splits off as one word. */
  lemma WordsCons(w: string, rest: string)
    requires IsToken(w)
    ensures Words(w + " " + rest) == [w] + Words(rest)
    ensures Words(w) == [w]
  {
    TokenLenOfToken(w, " " + rest);
    assert w + " " + rest == w + (" " + rest);
    assert (w + " " + rest)[..|w|] == w;
    assert (w + " " + rest)[|w|..] == " " + rest;
    assert (" " + rest)[1..] == rest;
    TokenLenOfToken(w, "");
    assert w + "" == w;
  }

  /** Joining tokens with single spaces and splitting again gives the tokens
      back: the round trip behind `str(Vectors)` and the exporter command. */
  lemma {:induction false} WordsOfJoin(ws: seq<string>)
    requires AllTokens(ws)
    ensures Words(Join(" ", ws)) == ws
  {
    if |ws| == 1 {
      WordsCons(ws[0], "");
    } else if |ws| > 1 {
      WordsOfJoin(ws[1..]);
      WordsCons(ws[0], Join(" ", ws[1..]));
    }
  }

  /** A trailing whitespace character adds no word. */
  lemma {:induction false} WordsSpaceTail(s: string, c: char)
    requires IsSpace(c)
    ensures Words(s + [c]) == Words(s)
    decreases |s|
  {
    if |s| == 0 {
      assert Words([c]) == Words([c][1..]);
    } else if IsSpace(s[0]) {
      assert (s + [c])[1..] == s[1..] + [c];
      WordsSpaceTail(s[1..], c);
    } else {
      var n := TokenLen(s);
      assert s + [c] == s[..n] + (s[n..] + [c]);
      TokenLenOfToken(s[..n], s[n..] + [c]);
      assert (s + [c])[..n] == s[..n];
      assert (s + [c])[n..] == s[n..] + [c];
      WordsSpaceTail(s[n..], c);
    }
  }

  function Spaces(n: nat): (s: string)
    ensures |s| == n && forall i :: 0 <= i < n ==> s[i] == ' '
  {
    seq(n, _ => ' ')
  }

  predicate AllSpaces(s: string) {
    forall i :: 0 <= i < |s| ==> s[i] == ' '
  }

  /** Python's `s.ljust(width)` (also the f-string spec `{s:<width}`). */
  function LJust(s: string, width: int): (r: string)
    ensures |r| == if width <= |s| then |s| else width
    ensures r[..|s|] == s && AllSpaces(r[|s|..])
  {
    if width <= |s| then s else s + Spaces(width - |s|)
  }

  /** Python's `s.rjust(width)`. */
  function RJust(s: string, width: int): (r: string)
    ensures |r| == if width <= |s| then |s| else width
    ensures r[|r| - |s|..] == s && AllSpaces(r[..|r| - |s|])
  {
    if width <= |s| then s else Spaces(width - |s|) + s
  }

  /** `len(max(xs, key=len))`: the length of the longest string. Python
      raises ValueError on an empty list; callers model that case. */
  function MaxLen(xs: seq<string>): (n: nat)
    requires |xs| > 0
    ensures forall k :: 0 <= k < |xs| ==> |xs[k]| <= n
    ensures exists k :: 0 <= k < |xs| && |xs[k]| == n
  {
    if |xs| == 1 then |xs[0]|
    else
      var m := MaxLen(xs[1..]);
      assert forall k :: 1 <= k < |xs| ==> xs[k] == xs[1..][k - 1];
      if |xs[0]| >= m then |xs[0]| else m
  }

  // ---- Line boundaries, as `readlines()` draws them ----

  /** Length of the first line of `s`, including its terminating newline. */
  function LineLen(s: string): (n: nat)
    ensures |s| > 0 ==> 0 < n
    ensures n <= |s|
  {
    if |s| == 0 then 0 else if s[0] == '\n' then 1 else 1 + LineLen(s[1..])
  }

  /** Python's `file.readlines()` on text whose line endings have already
      been translated to '\n': every line keeps its terminator; only the
      last may lack one. */
  function ReadLines(s: string): (ls: seq<string>)
    ensures forall k :: 0 <= k < |ls| ==> |ls[k]| > 0
    decreases |s|
  {
    if |s| == 0 then [] else
      var n := LineLen(s);
      [s[..n]] + ReadLines(s[n..])
  }

  function Concat(ls: seq<string>): string {
    if |ls| == 0 then "" else ls[0] + Concat(ls[1..])
  }

  /** A line as `readlines()` yields it: non-empty, with a newline at most
      as its final character. */
  predicate IsLine(l: string) {
    |l| > 0 && forall i :: 0 <= i < |l| - 1 ==> l[i] != '\n'
  }

  predicate Terminated(l: string) {
    |l| > 0 && l[|l| - 1] == '\n'
  }

  /** The shape of a `readlines()` result. */
  predicate LineShaped(ls: seq<string>) {
    && (forall k :: 0 <= k < |ls| ==> IsLine(ls[k]))
    && (forall k :: 0 <= k < |ls| - 1 ==> Terminated(ls[k]))
  }

  lemma {:induction false} LineLenOfLine(l: string, rest: string)
    requires IsLine(l)
    requires Terminated(l) || rest == ""
    ensures LineLen(l + rest) == |l|
    decreases |l|
  {
    if |l| > 1 {
      assert (l + rest)[1..] == l[1..] + rest;
      LineLenOfLine(l[1..], rest);
    } else if !Terminated(l) {
      assert l + rest == l;
    }
  }

  /** Splitting text into lines and concatenating them gives the text back,
      and the pieces are shaped like a `readlines()` result. */
  lemma {:induction false} ReadLinesShape(s: string)
    ensures LineShaped(ReadLines(s))
    ensures Concat(ReadLines(s)) == s
    decreases |s|
  {
    if |s| > 0 {
      var n := LineLen(s);
      ReadLinesShape(s[n..]);
      LineLenShape(s);
      assert s == s[..n] + s[n..];
    }
  }

  lemma {:induction false} LineLenShape(s: string)
    requires |s| > 0
    ensures IsLine(s[..LineLen(s)])
    ensures LineLen(s) < |s| ==> Terminated(s[..LineLen(s)])
    decreases |s|
  {
    if s[0] != '\n' && |s| > 1 {
      LineLenShape(s[1..]);
      assert s[..LineLen(s)] == [s[0]] + s[1..][..LineLen(s[1..])];
    }
  }

  /** Concatenating lines shaped like a `readlines()` result and reading
      them back gives the same lines. */
  lemma {:induction false} ReadLinesOfConcat(ls: seq<string>)
    requires LineShaped(ls)
    ensures ReadLines(Concat(ls)) == ls
  {
    if |ls| > 0 {
      var rest := Concat(ls[1..]);
      assert LineShaped(ls[1..]);
      ReadLinesOfConcat(ls[1..]);
      if |ls| == 1 {
        assert rest == "";
      }
      LineLenOfLine(ls[0], rest);
      assert (ls[0] + rest)[..|ls[0]|] == ls[0];
      assert (ls[0] + rest)[|ls[0]|..] == rest;
    }
  }
}

=== FILE: vectors.dfy ===
/** The `Vectors` class: the set of signal names a simulation is asked to
    save, built from whitespace-separated text. Python keeps it as
    `list(set(...))`, whose order is unspecified; here the order is that of
    first occurrence, and every contract that the source guarantees is
    stated on the elements alone. */
module Vectors {
  import opened Seqs
  import opened Text

  /** The names as `str.split()` produced them, without repeats. */
  predicate Valid(data: seq<string>) {
    NoDup(data) && AllTokens(data)
  }

  /** A `Vectors` object. Every way of building one goes through
      `str.split()` and a set, so its names are distinct tokens. */
  datatype VectorSet = VectorSet(data: seq<string>)

  type Vectors = v: VectorSet | Valid(v.data) witness VectorSet([])

  /** `Vectors(text)`: the distinct words of `text`. */
  function FromText(text: string): (v: Vectors)
    ensures forall k :: 0 <= k < |v.data| ==> v.data[k] in Words(text)
    ensures forall k :: 0 <= k < |Words(text)| ==> Words(text)[k] in v.data
  {
    var ws := Words(text);
    WordsAreTokens(text);
    var d := Distinct(ws);
    VectorSet(d)
  }

  /** `str(v)`: the names joined by single spaces. */
  function Str(v: Vectors): (s: string)
    ensures Words(s) == v.data
  {
    WordsOfJoin(v.data);
    Join(" ", v.data)
  }

  /** `list_out`: the names, each once, as the very list that `str()`
      prints, in the same order. */
  function ListOut(v: Vectors): (r: seq<string>)
    ensures r == Words(Str(v))
    ensures NoDup(r) && AllTokens(r)
    ensures forall k :: 0 <= k < |r| ==> r[k] in v.data
    ensures forall k :: 0 <= k < |v.data| ==> v.data[k] in r
  {
    v.data
  }

  /** Printing a vector set and reading the text back gives the same set. */
  lemma FromTextOfStr(v: Vectors)
    ensures FromText(Str(v)) == v
  {
    WordsOfJoin(v.data);
    DistinctOfNoDup(v.data);
  }

  /** `a + b`: the names of both, each once. */
  function Add(a: Vectors, b: Vectors): (r: Vectors)
    ensures forall x :: x in r.data <==> x in a.data || x in b.data
  {
    var combined := a.data + b.data;
    var unique := Distinct(combined);
    assert AllTokens(unique) by {
      forall k | 0 <= k < |unique| ensures IsToken(unique[k]) {
        var j :| 0 <= j < |combined| && combined[j] == unique[k];
      }
    }
    WordsOfJoin(unique);
    var r := FromText(Join(" ", unique));
    forall x ensures x in r.data <==> x in a.data || x in b.data {
      if x in r.data {
        var k :| 0 <= k < |r.data| && r.data[k] == x;
        var j :| 0 <= j < |combined| && combined[j] == x;
      }
      if x in combined {
        var j :| 0 <= j < |combined| && combined[j] == x;
      }
    }
    r
  }

  /** Same names, regardless of order. */
  ghost predicate SameNames(a: Vectors, b: Vectors) {
    forall x :: x in a.data <==> x in b.data
  }

  /** Union is commutative on the names. */
  lemma AddCommutes(a: Vectors, b: Vectors)
    ensures SameNames(Add(a, b), Add(b, a))
  {
  }

  /** Union is associative on the names. */
  lemma AddAssociates(a: Vectors, b: Vectors, c: Vectors)
    ensures SameNames(Add(Add(a, b), c), Add(a, Add(b, c)))
  {
  }

  /** Adding a set to itself, or adding the empty set, gives it back
      unchanged, order included. */
  lemma AddUnit(a: Vectors)
    ensures Add(a, a) == a
    ensures Add(a, FromText("")) == a
  {
    var e := FromText("");
    assert Words("") == [];
    assert e.data == [];
    assert a.data + e.data == a.data;
    DistinctSelf(a.data);
    WordsOfJoin(a.data);
    DistinctOfNoDup(a.data);
  }

  /** Repeating a list without repeats adds nothing to its de-duplication. */
  lemma {:induction false} DistinctSelf(xs: seq<string>)
    requires NoDup(xs)
    ensures Distinct(xs + xs) == xs
  {
    DistinctTail(xs, xs);
    DistinctOfNoDup(xs);
  }

  /** Appending elements already present adds nothing. */
  lemma {:induction false} DistinctTail(xs: seq<string>, ys: seq<string>)
    requires forall k :: 0 <= k < |ys| ==> ys[k] in xs
    ensures Distinct(xs + ys) == Distinct(xs)
    decreases |ys|
  {
    if |ys| > 0 {
      var init := ys[..|ys| - 1];
      DistinctTail(xs, init);
      assert xs + ys == (xs + init) + [ys[|ys| - 1]];
      assert (xs + ys)[..|xs + ys| - 1] == xs + init;
      assert (xs + ys)[|xs + ys| - 1] == ys[|ys| - 1];
      assert ys[|ys| - 1] in xs + init;
    } else {
      assert xs + ys == xs;
    }
  }
}
